=== FILE: README.md ===
# strava-bot, modelled in Dafny

A Strava club leaderboard runs on three scripts that read and write a Google Sheet.

- **sync_club.js** is the club sync.
  - It reads an optional date window from the `Config` tab.
  - It reads each registered athlete's own activities, using the tokens stored in the `Athletes` tab.
  - It pages through the club-wide activity feed. Club activities of athletes whose own feed was read are dropped.
  - It sorts everything newest first and replaces the `Stats` tab with one row per activity.
- **sync.js** is the per-athlete daily sync. For every `Athletes` row it:
  - refreshes the token, writing a rotated token back;
  - scores the month's runs at ten points per kilometre;
  - upserts the score into `Stats` by `athlete_id`.

  It then sorts the leaderboard by points.
- **cloudfunction/index.js** is the OAuth registration endpoint. It exchanges the code it receives. Then it updates the athlete's `Athletes` row, or appends one.

The model keeps the logic of these scripts and turns everything around it into plain inputs:
- The tabs are sequences of typed rows. A missing tab is `None`.
- Every HTTP call is a function parameter that answers with a value or an error.
- Dates are integer milliseconds. `new Date(value)` and `setHours(23, 59, 59, 999)` are parameters too.

Modules follow the structure of the scripts:

| module | file | covers |
|---|---|---|
| `Wrappers` | wrappers.dfy | `Option` (a value that may be `undefined`) and `Result` (a call that may throw) |
| `Text` | text.dfy | `trim`, `split(' ')`, `replace(/\s+/g, '_')`, ASCII `toLowerCase`, `toString` of a number |
| `Ordering` | ordering.dfy | the stable descending sort both scripts get from `Array.prototype.sort` |
| `Tables` | tables.dfy | `rows.find(...)` by key and find-or-append |
| `Strava`, `Sheets` | strava.dfy, sheets.dfy | API answers and sheet rows |
| `ClubConfig` | club_config.dfy | the date window and the `Config` tab override |
| `ClubNames` | club_names.dfy | `toClubName`, display names and slugs |
| `ClubFeed` | club_feed.dfy | verified feeds, the exclusion set, the paginated club loop and the dedup filter |
| `ClubStats` | club_stats.dfy | the date sort, the row mapping, the Stats replace and the whole club run |
| `Scoring` | scoring.dfy | run-only points |
| `AthleteSync` | athlete_sync.dfy | token write-back, the score upsert, the athlete loop and the leaderboard |
| `Registration` | registration.dfy | the registration endpoint |

Facts about the scripts that shape the model:
- The Config tab is read only as one key/value pair per row. The key is the `Key` cell or else the first cell of the row; the value is the `Value` cell or else the second cell.
- Only activities whose type is exactly `Run` score, at ten points per kilometre. Every other type scores nothing.
- Neither sync script groups activities or scores per athlete beyond the `athlete_id` upsert of sync.js.
- The club sync writes its Stats rows newest first and nothing reorders them afterwards.

## Model

| member | source | states |
|---|---|---|
| `Text.Trim` | sync_club.js:66 | the trimmed name is the slice of the input between its leading and trailing whitespace, and neither end of it is whitespace |
| `Text.Split` | sync_club.js:66 | `split(' ')` always gives at least one piece; `SplitPieces`, `JoinSplit`, `SplitFirst` and `SplitLast` pin the pieces |
| `Text.SplitPieces` | sync_club.js:66 | splitting gives one piece exactly when the separator does not occur, and no piece contains the separator |
| `Text.JoinSplit` | sync_club.js:66 | joining the pieces of `split(sep)` with `sep` gives the string back |
| `Text.SplitFirst` | sync_club.js:66 | the first piece is the text before the first separator |
| `Text.SplitLast` | sync_club.js:68 | the last piece is the text after the last separator |
| `Text.CollapseSpaces` | sync_club.js:227 | `replace(/\s+/g, '_')` leaves no whitespace, never lengthens, and leaves a whitespace-free string as it is |
| `Text.CollapseWordThenGap` | sync_club.js:227 | a word followed by a whitespace run becomes the word and one `_` |
| `Text.ToLowerAscii` | sync_club.js:227 | `toLowerCase()` keeps the length and lowers each character on its own, ASCII letters only |
| `Text.DecimalRoundTrip` | cloudfunction/index.js:49 | reading back the decimal `athlete.id.toString()` gives the id |
| `Text.DecimalInjective` | cloudfunction/index.js:59 | two ids with the same decimal string are the same id, so the string is a faithful key |
| `Text.NatToDecimal` | cloudfunction/index.js:49 | `athlete.id.toString()` is a non-empty digit string without a leading zero, one digit exactly below ten; `DecimalRoundTrip` reads it back |
| `Ordering.Insert` | sync_club.js:210-214 | insertion keeps the list non-increasing by key and adds exactly the element |
| `Ordering.SortDesc` | sync_club.js:210-214 | the sorted list is non-increasing by key and a permutation of the input |
| `Ordering.SortStable` | sync_club.js:210-214 | elements of equal key keep their input order |
| `Ordering.SortedUnique` | sync.js:93 | two non-increasing lists with the same elements of every key in the same order are equal |
| `Ordering.StableSortIsSortDesc` | sync.js:93 | any stable descending sort of the input is exactly `SortDesc`'s result |
| `Tables.FindFirst` | sync.js:72 | `find` gives the first row with the key, and nothing exactly when no row has it |
| `Tables.Upsert` | sync.js:72-85 | the first row with the key is replaced by its update when there is one; otherwise the new row is appended |
| `Tables.UpsertCounts` | cloudfunction/index.js:49-64 | after an upsert the key is on as many rows as before, or on one row if it was on none; other keys' counts are unchanged |
| `Tables.UpsertKeepsUnique` | cloudfunction/index.js:49-64 | an upsert keeps keys unique |
| `Tables.CountsGiveUniqueKeys` | sync.js:72 | keys counted at most once are unique |
| `Strava.UnixSeconds` | sync_club.js:94-95 | `Math.floor(t / 1000)` is the whole number of seconds in `t` |
| `ClubConfig.ApplyRow` | sync_club.js:37-49 | a `START_DATE` row with a value moves the start, an `END_DATE` row with a value moves the end to the end of that day, and any other row changes nothing |
| `ClubConfig.Sets` | sync_club.js:37-44 | a row sets a key when its `Key` cell, or failing that its first raw cell, is the key, and its `Value` cell, or failing that its second raw cell, is non-empty |
| `ClubConfig.LastSetting` | sync_club.js:40-44 | finds the last row that sets a key, with that row's value and no later row setting it; there is none exactly when no row sets it |
| `ClubConfig.KeyOf` | sync_club.js:37 | the key is the `Key` cell, or when that is empty the first raw cell, or empty when the row has none |
| `ClubConfig.ValueOf` | sync_club.js:38 | the value is the `Value` cell, or when that is empty the second raw cell, or empty when the row has fewer |
| `ClubConfig.ApplyRows` | sync_club.js:36-50 | a bound that no row sets keeps its default |
| `ClubConfig.ApplyRowsLastWins` | sync_club.js:36-50 | after all rows, each bound comes from the last row that sets it, and otherwise keeps its old value |
| `ClubConfig.ReadConfig` | sync_club.js:8-56 | the window is the default one without a Config tab; otherwise each bound is its last setting or the default |
| `ClubNames.ToClubName` | sync_club.js:64-70 | an empty name gives `""`; a trimmed name without a space is returned whole; otherwise the result is the first word, a space, the first character after the last space, and `.` |
| `ClubNames.ClubNameOfTwoWords` | sync_club.js:64-70 | `"first last"` gives `"first L."` |
| `ClubNames.ClubNameOfJaneDoe` | sync_club.js:64-70 | "Jane Doe" gives "Jane D." |
| `ClubNames.ClubNameShape` | sync_club.js:66-69 | a multi-word name always gives a non-empty word without spaces, a space, one character and `.` |
| `ClubNames.Slug` | sync_club.js:227 | the slug has no whitespace and no upper-case letter, and a name with neither is its own slug |
| `ClubNames.SlugOfDisplayName` | sync_club.js:226-227 | the slug of `"first last"` is `first_last` lower-cased |
| `ClubFeed.VerifiedQuery` | sync_club.js:94-99 | the `after`/`before` bounds are the window in whole seconds, with `per_page` 100 |
| `ClubFeed.TagVerified` | sync_club.js:105-110 | every fetched activity is kept, in order, tagged with the row's full name |
| `ClubFeed.AthleteFeed` | sync_club.js:81-102 | a row yields a feed exactly when it has a refresh token, its exchange succeeds and the fetch with the new access token succeeds; the feed is what that fetch returned |
| `ClubFeed.RowActs` | sync_club.js:81-110 | a row contributes its whole feed tagged with its name, or nothing when it yields no feed |
| `ClubFeed.CollectVerified` | sync_club.js:77-119 | every verified activity is tagged with a name that is in the exclusion set |
| `ClubFeed.CollectVerifiedComplete` | sync_club.js:81-114 | a row with a token whose exchange and fetch both succeed has its name and `toClubName` form excluded |
| `ClubFeed.CollectVerifiedSound` | sync_club.js:81-114 | every excluded name is the name or `toClubName` form of such a row |
| `ClubFeed.CollectVerifiedFlatten` | sync_club.js:77-119 | the verified list is the rows' contributions concatenated in row order |
| `ClubFeed.CollectVerifiedActs` | sync_club.js:105-110 | each row's contribution is one contiguous block, after the blocks of the rows before it and before those of the rows after it |
| `ClubFeed.VerifiedFeed` | sync_club.js:72-125 | a missing Athletes tab gives no activities and no exclusions |
| `ClubFeed.KeepUnverifiedSound` | sync_club.js:171-185 | everything kept is a club activity of the page whose display name is not excluded |
| `ClubFeed.KeepUnverifiedComplete` | sync_club.js:171-185 | every activity of the page whose display name is not excluded is kept |
| `ClubFeed.KeepUnverifiedAppend` | sync_club.js:171-185 | filtering two pages is filtering each in turn |
| `ClubFeed.KeepUnverified` | sync_club.js:171-185 | a page never yields more club activities than it holds |
| `ClubFeed.ClubName` | sync_club.js:172 | the club name is the first name, one space and the last name |
| `ClubFeed.DedupByClubName` | sync_club.js:171-180 | with "Jane Doe" verified, the club's "Jane D." is dropped and "John D." kept |
| `ClubFeed.FullPagesMeans` | sync_club.js:189-194 | the loop's recursive record of full pages is the same as "every page up to n was full" |
| `ClubFeed.Continues` | sync_club.js:162-191 | the loop asks for another page exactly after a page of at least `per_page` activities; a failed request or an empty page stops it |
| `ClubFeed.Gathered` | sync_club.js:150-194 | the pages read hold exactly the gathered activities: each came from one of pages 1 to n and each activity of those pages is there |
| `ClubFeed.GatherStep` | sync_club.js:171-185 | one turn of the loop appends the kept part of the new page |
| `ClubFeed.GatheredBound` | sync_club.js:145-157 | pages of at most 200 give at most 200 activities per page read |
| `ClubFeed.FetchClubFeed` | sync_club.js:143-200 | asks for 1 to 10 pages and goes on only after a full page; stops after a failed, empty or short page; the result is the verified activities followed by the kept club activities of the pages read, at most 10 × 200 of them when no page holds more than 200 |
| `ClubStats.ClubAthleteKey` | sync_club.js:227 | a club row's id is the feed's non-zero id, or else the slug of the display name |
| `ClubStats.ToRow` | sync_club.js:216-240 | a verified row keeps the full name, the feed's athlete id (none when the feed has none) and date; a club row gets the display name, a synthesised id and the window start for a missing date; the written date, read with the same fallback, is the sort key |
| `ClubStats.DateOf` | sync_club.js:211-212 | the sort key is the activity's local start date, or the window start when it has none |
| `ClubStats.MapRows` | sync_club.js:216-240 | one row per activity, the i-th row being the i-th activity's row |
| `ClubStats.MapRowsInsert` | sync_club.js:216-240 | mapping after an insertion gives the mapped rows plus the inserted element's row |
| `ClubStats.MapRowsSort` | sync_club.js:210-240 | sorting and then mapping writes each activity's row exactly once |
| `ClubStats.StatsRows` | sync_club.js:210-240 | one row per activity, non-increasing by date with the window start for a missing date |
| `ClubStats.StatsRowsPermute` | sync_club.js:210-240 | the written rows are a permutation of the activities' rows |
| `ClubStats.StatsRowsStable` | sync_club.js:210-214 | activities of equal date keep their gathered order |
| `ClubStats.WriteStats` | sync_club.js:205-246 | with activities the table becomes exactly their rows (the same multiset), in the order of the stable newest-first sort of the activities; without any it is untouched |
| `ClubStats.WriteStatsIdempotent` | sync_club.js:205-206 | a second run with the same activities changes nothing, and the result does not depend on the old table |
| `ClubStats.SyncClub` | sync_club.js:28-246 | a failed club token exchange aborts the run; otherwise the run reads the window, the verified feeds and 1 to 10 club pages, asking for another page exactly while the last one was full and fewer than 10 were read, and writes the Stats tab from them |
| `ClubStats.GatheredDeduplicated` | sync_club.js:143-185 | before sorting, verified activities precede club ones, and no club activity has the name or `toClubName` form of a verified athlete |
| `Scoring.Points` | sync.js:54-67 | points are the whole hundreds of run metres: ten per kilometre, floored |
| `Scoring.RunMetres` | sync.js:57-62 | the run total is at least the distance of every activity of type `Run`; `RunMetresSingle` and `RunMetresAppend` pin it to the sum |
| `Scoring.RunMetresAppend` | sync.js:57-62 | run distance adds up over a concatenation |
| `Scoring.RunMetresSingle` | sync.js:57-62 | one activity adds exactly its distance when its type is `Run`, and nothing otherwise; with `RunMetresAppend` this makes the total the sum of the run distances |
| `Scoring.OtherKindsAddNothing` | sync.js:57-62 | activities whose type is not `Run` change neither distance nor points |
| `Scoring.FloorAfterSumDominates` | sync.js:60-67 | flooring once after the sum never gives less than flooring each run |
| `Scoring.TwoShortRuns` | sync.js:60-67 | two 95 m runs earn one point together but none when floored one at a time |
| `AthleteSync.RotateToken` | sync.js:41-44 | the row is rewritten exactly when the returned token differs, and only its token changes |
| `AthleteSync.StoredRow` | sync.js:41-44 | the stored row holds the returned token and is otherwise unchanged |
| `AthleteSync.SyncRow` | sync.js:29-89 | a failed refresh leaves the row and yields no entry; a failed fetch keeps the rotated token and yields no entry; otherwise the entry holds the run distance and points |
| `AthleteSync.RecordScore` | sync.js:71-85 | the first Stats row with the athlete's id gets the new totals and nothing else changes; without one, exactly one row is appended |
| `AthleteSync.RecordScoreKeepsUnique` | sync.js:71-85 | recording a score keeps Stats ids unique |
| `AthleteSync.Entries` | sync.js:64-68 | at most one leaderboard entry per athlete row; `FailedAthleteSkipped` and `SyncedAthleteCounted` say which rows add one |
| `AthleteSync.SyncedAthleteCounted` | sync.js:64-85 | an athlete whose refresh and fetch succeed adds its entry, whatever its points, at its place in row order, and its score is recorded in Stats after the rows before it and before the rows after it |
| `AthleteSync.StatsAfter` | sync.js:28-85 | the upserts keep every existing Stats row's athlete id in place and append at most one row per athlete row; `StatsAfterSnoc` and `StatsAfterAppend` say what each row writes |
| `AthleteSync.StatsAfterSnoc` | sync.js:70-89 | one more athlete leaves Stats as it was when its sync fails, and records its score (update in place or append) when it succeeds |
| `AthleteSync.StatsAfterAppend` | sync.js:28-90 | the Stats tab is threaded through the rows in order: syncing `a` then `b` is syncing `a + b` |
| `AthleteSync.StatsAfterKeepsUnique` | sync.js:28-90 | from a Stats tab whose ids are unique, however many athletes are synced, no Stats id ends up on two rows |
| `AthleteSync.FailedAthleteSkipped` | sync.js:87-89 | an athlete whose refresh or fetch fails adds no entry and leaves Stats as the rows before it left it, and the rows after it are still processed |
| `AthleteSync.RunSync` | sync.js:25-93 | each Athletes row ends as its sync left it, Stats is the result of the upserts in row order, and the leaderboard is the stable sort of the entries by points, so a permutation of them, non-increasing by points |
| `AthleteSync.LeaderboardStable` | sync.js:93 | entries of equal points keep their row order |
| `Registration.NewRow` | cloudfunction/index.js:58-63 | a new row's `athlete_id` is the athlete's id in decimal, and it holds the new refresh token |
| `Registration.SaveAthlete` | cloudfunction/index.js:48-64 | an existing row gets the new token and registration time and nothing else changes; otherwise exactly one row is appended with the id, `firstname lastname` and the token |
| `Registration.SaveAthleteCounts` | cloudfunction/index.js:49-64 | a registration leaves every other id's row count unchanged, and puts the athlete's id on one row if it was on none |
| `Registration.Register` | cloudfunction/index.js:5-77 | no code gives 400 with nothing written; a failed exchange or a missing tab gives 500 with the message; only a complete registration redirects, and then the tab is updated |
| `Registration.NoCodeNoExchange` | cloudfunction/index.js:9-12 | without a code the token endpoint's answer makes no difference |
| `Registration.ReRegistration` | cloudfunction/index.js:48-64 | when the Athletes ids are unique, registering the same athlete twice leaves one row for them, holding the second token |

## Left out

- HTTP requests, the Google Sheets client and its JWT key handling, `process.exit`, console logging and the `scoreboard.json` file write. HTTP calls are function parameters; the leaderboard is returned instead of written.
- The metadata cells of the club sync (sync_club.js:248-261). They hold clock readings and ISO date formatting.
- Date parsing, ISO and locale formatting, and time zones. `new Date(value)`, `setHours(23, 59, 59, 999)`, the start of the current month and the two clock strings of the registration are all inputs.
- Floating point and `toFixed(2)`. Distances are whole metres, and a leaderboard entry holds metres where the script holds kilometres formatted with two decimals.
- Sheet writes that fail (`save`, `addRow`, `clearRows`, `addRows`) are not modelled. In sync.js, a failed token `save` would skip the athlete through the `catch`. In the club sync a failed Stats write rejects the run.
- AthleteSync.StatsAfter: the Stats tab of sync.js is always present and readable. The script pushes the leaderboard entry before it reads Stats (sync.js:64-71). A missing tab or a failed `getRows` therefore keeps the entry and skips the upsert through the `catch`; the model always upserts.
- Sheet reads that fail are modelled like a missing tab (`None`) for Config and Athletes in the club sync. In the registration only the missing tab is modelled; other sheet errors would also give a 500 response.
- ClubConfig.ReadConfig: assumes every value parses to a date. For an unparseable value, `toISOString` throws inside the `forEach`. The `catch` then keeps the invalid date and skips the remaining rows.
- Text.ToLowerAscii: lower-cases ASCII letters only. `toLowerCase` also maps other Unicode letters.
- ClubNames.ToClubName: `charAt(0)` takes a UTF-16 code unit. The model takes a whole character, so the two differ for characters outside the Basic Multilingual Plane.
- AthleteSync.RunSync: the activity request is one call that answers with the list. The script sends no `per_page`, so the service's default page size applies.
- Registration.Register: an absent `code` and an empty one are both `""`. A repeated query parameter, which would arrive as an array, is not modelled.
- Scoring.Points: works on whole metres with exact arithmetic. The script adds `distance / 1000 * 10` in floating point for every run and floors the sum, so rounding in the last place of a sum is not modelled.
- AthleteSync.RunSync: takes the Athletes rows as given. Without an `Athletes` tab, the script fails before the loop and writes nothing.

=== FILE: athlete_sync.dfy ===
/** The daily per-athlete sync: for every Athletes row, refresh its token
    (writing a rotated token back), read the month's activities, score them,
    record the score on the leaderboard and upsert it into the Stats tab;
    finally sort the leaderboard by points. */
module AthleteSync {
  import opened Wrappers
  import opened Strava
  import opened Sheets
  import opened Tables
  import opened Ordering
  import opened Scoring

  /** A leaderboard entry. `distanceMetres` stands for the kilometres the
      script formats with two decimals. */
  datatype Entry = Entry(name: string, distanceMetres: nat, points: nat)

  function EntryPoints(e: Entry): int {
    e.points
  }

  function ScoreId(r: ScoreRow): string {
    r.athleteId
  }

  /** The Athletes row after a token refresh that returned `returned`: a
      different token is written back (`Some`), an equal one is not (`None`). */
  function RotateToken(row: AthleteRow, returned: string): (r: Option<AthleteRow>)
    ensures r.Some? <==> returned != row.refreshToken
    ensures r.Some? ==> r.value.refreshToken == returned && r.value.(refreshToken := row.refreshToken) == row
  {
    if returned != row.refreshToken then Some(row.(refreshToken := returned)) else None
  }

  /** The row as stored once the refresh has answered: it holds the returned
      token and is otherwise unchanged. */
  function StoredRow(row: AthleteRow, returned: string): (r: AthleteRow)
    ensures r.refreshToken == returned
    ensures r.(refreshToken := row.refreshToken) == row
  {
    RotateToken(row, returned).GetOr(row)
  }

  /** What one row of the loop yields: the row as stored afterwards and the
      leaderboard entry, if the athlete was synced. */
  datatype RowOutcome = RowOutcome(row: AthleteRow, entry: Option<Entry>)

  /** The body of the loop for one row. A failed token refresh leaves the row
      alone and yields nothing; a failed activity request after a successful
      refresh still keeps the written-back token but yields nothing. */
  function SyncRow(row: AthleteRow, exchange: string -> Result<TokenGrant>,
                   fetch: (string, int) -> Result<seq<Activity>>, monthStart: int): (o: RowOutcome)
    ensures exchange(row.refreshToken).Err? ==> o == RowOutcome(row, None)
    ensures exchange(row.refreshToken).Ok? ==>
      o.row == StoredRow(row, exchange(row.refreshToken).value.refreshToken)
    ensures o.entry.Some? <==>
      exchange(row.refreshToken).Ok? && fetch(exchange(row.refreshToken).value.accessToken, monthStart).Ok?
    ensures o.entry.Some? ==>
      var acts := fetch(exchange(row.refreshToken).value.accessToken, monthStart).value;
      o.entry.value == Entry(row.name, RunMetres(acts), Points(acts))
  {
    match exchange(row.refreshToken)
    case Err(_) => RowOutcome(row, None)
    case Ok(grant) =>
      var stored := StoredRow(row, grant.refreshToken);
      match fetch(grant.accessToken, monthStart)
      case Err(_) => RowOutcome(stored, None)
      case Ok(acts) => RowOutcome(stored, Some(Entry(row.name, RunMetres(acts), Points(acts))))
  }

  /** The Stats tab after recording one athlete's score: the first row with
      the athlete's id gets the new totals (its name is left as it was);
      without such a row one is appended. */
  function RecordScore(stats: seq<ScoreRow>, row: AthleteRow, e: Entry): (r: seq<ScoreRow>)
    ensures (forall j :: 0 <= j < |stats| ==> stats[j].athleteId != row.athleteId) ==>
      r == stats + [ScoreRow(row.athleteId, row.name, e.points, e.distanceMetres)]
    ensures forall k: nat :: FirstWith(stats, ScoreId, row.athleteId, k) ==>
      && |r| == |stats|
      && r[k] == stats[k].(totalPoints := e.points, totalDistance := e.distanceMetres)
      && forall j :: 0 <= j < |stats| && j != k ==> r[j] == stats[j]
  {
    Upsert(stats, ScoreId, row.athleteId,
           (s: ScoreRow) => s.(totalPoints := e.points, totalDistance := e.distanceMetres),
           ScoreRow(row.athleteId, row.name, e.points, e.distanceMetres))
  }

  /** Recording a score keeps the Stats ids unique. */
  lemma RecordScoreKeepsUnique(stats: seq<ScoreRow>, row: AthleteRow, e: Entry)
    requires UniqueKeys(stats, ScoreId)
    ensures UniqueKeys(RecordScore(stats, row, e), ScoreId)
  {
    UpsertKeepsUnique(stats, ScoreId, row.athleteId,
                      (s: ScoreRow) => s.(totalPoints := e.points, totalDistance := e.distanceMetres),
                      ScoreRow(row.athleteId, row.name, e.points, e.distanceMetres));
  }

  /** The leaderboard entries of the rows, in row order: one per synced row. */
  function Entries(rows: seq<AthleteRow>, exchange: string -> Result<TokenGrant>,
                   fetch: (string, int) -> Result<seq<Activity>>, monthStart: int): (es: seq<Entry>)
    ensures |es| <= |rows|
    decreases |rows|
  {
    if rows == [] then []
    else
      var last := SyncRow(rows[|rows| - 1], exchange, fetch, monthStart).entry;
      Entries(rows[..|rows| - 1], exchange, fetch, monthStart) + (if last.Some? then [last.value] else [])
  }

  /** The Stats tab after the rows, each synced row recording its score. */
  function StatsAfter(stats: seq<ScoreRow>, rows: seq<AthleteRow>, exchange: string -> Result<TokenGrant>,
                      fetch: (string, int) -> Result<seq<Activity>>, monthStart: int): (r: seq<ScoreRow>)
    ensures |stats| <= |r| <= |stats| + |rows|
    ensures forall j :: 0 <= j < |stats| ==> r[j].athleteId == stats[j].athleteId
    decreases |rows|
  {
    if rows == [] then stats
    else
      var row := rows[|rows| - 1];
      var before := StatsAfter(stats, rows[..|rows| - 1], exchange, fetch, monthStart);
      match SyncRow(row, exchange, fetch, monthStart).entry
      case None => before
      case Some(e) => RecordScore(before, row, e)
  }

  /** The Stats tab after one more row: unchanged when that athlete's sync
      fails, its score recorded when it succeeds. */
  lemma StatsAfterSnoc(stats: seq<ScoreRow>, rows: seq<AthleteRow>, row: AthleteRow,
                       exchange: string -> Result<TokenGrant>,
                       fetch: (string, int) -> Result<seq<Activity>>, monthStart: int)
    ensures StatsAfter(stats, rows + [row], exchange, fetch, monthStart)
         == match SyncRow(row, exchange, fetch, monthStart).entry
            case None => StatsAfter(stats, rows, exchange, fetch, monthStart)
            case Some(e) => RecordScore(StatsAfter(stats, rows, exchange, fetch, monthStart), row, e)
  {
    assert (rows + [row])[..|rows|] == rows;
  }

  /** Syncing the rows of `a` and then those of `b` is syncing `a + b`: the
      Stats tab is threaded through the rows in order. */
  lemma {:induction false} StatsAfterAppend(stats: seq<ScoreRow>, a: seq<AthleteRow>, b: seq<AthleteRow>,
                                            exchange: string -> Result<TokenGrant>,
                                            fetch: (string, int) -> Result<seq<Activity>>, monthStart: int)
    ensures StatsAfter(stats, a + b, exchange, fetch, monthStart)
         == StatsAfter(StatsAfter(stats, a, exchange, fetch, monthStart), b, exchange, fetch, monthStart)
    decreases |b|
  {
    if b == [] {
      assert a + b == a;
    } else {
      var init := b[..|b| - 1];
      StatsAfterAppend(stats, a, init, exchange, fetch, monthStart);
      assert (a + b)[..|a + b| - 1] == a + init;
      assert (a + b)[|a + b| - 1] == b[|b| - 1];
    }
  }

  /** However many athletes are synced, no Stats id ends up on two rows. */
  lemma {:induction false} StatsAfterKeepsUnique(stats: seq<ScoreRow>, rows: seq<AthleteRow>,
                                                 exchange: string -> Result<TokenGrant>,
                                                 fetch: (string, int) -> Result<seq<Activity>>, monthStart: int)
    requires UniqueKeys(stats, ScoreId)
    ensures UniqueKeys(StatsAfter(stats, rows, exchange, fetch, monthStart), ScoreId)
    decreases |rows|
  {
    if rows != [] {
      var row := rows[|rows| - 1];
      StatsAfterKeepsUnique(stats, rows[..|rows| - 1], exchange, fetch, monthStart);
      match SyncRow(row, exchange, fetch, monthStart).entry
      case None =>
      case Some(e) =>
        RecordScoreKeepsUnique(StatsAfter(stats, rows[..|rows| - 1], exchange, fetch, monthStart), row, e);
    }
  }

  /** The whole run over the Athletes rows. It returns the Athletes rows as
      stored afterwards, the Stats tab and the leaderboard sorted by points. */
  method RunSync(athletes: seq<AthleteRow>, statsTab: seq<ScoreRow>,
                 exchange: string -> Result<TokenGrant>,
                 fetch: (string, int) -> Result<seq<Activity>>, monthStart: int)
    returns (stored: seq<AthleteRow>, statsOut: seq<ScoreRow>, leaderboard: seq<Entry>)
    ensures |stored| == |athletes| && forall i :: 0 <= i < |athletes| ==>
      stored[i] == SyncRow(athletes[i], exchange, fetch, monthStart).row
    ensures statsOut == StatsAfter(statsTab, athletes, exchange, fetch, monthStart)
    ensures |leaderboard| <= |athletes|
    ensures SortedDesc(leaderboard, EntryPoints)
    ensures multiset(leaderboard) == multiset(Entries(athletes, exchange, fetch, monthStart))
    ensures leaderboard == SortDesc(Entries(athletes, exchange, fetch, monthStart), EntryPoints)
  {
    stored := athletes;
    statsOut := statsTab;
    var board: seq<Entry> := [];
    var i := 0;
    while i < |athletes|
      invariant 0 <= i <= |athletes|
      invariant |stored| == |athletes|
      invariant forall j :: 0 <= j < i ==> stored[j] == SyncRow(athletes[j], exchange, fetch, monthStart).row
      invariant board == Entries(athletes[..i], exchange, fetch, monthStart)
      invariant statsOut == StatsAfter(statsTab, athletes[..i], exchange, fetch, monthStart)
    {
      var row := athletes[i];
      var outcome := SyncRow(row, exchange, fetch, monthStart);
      stored := stored[i := outcome.row];
      assert athletes[..i + 1][..i] == athletes[..i];
      if outcome.entry.Some? {
        board := board + [outcome.entry.value];
        statsOut := RecordScore(statsOut, row, outcome.entry.value);
      }
      i := i + 1;
    }
    assert athletes[..i] == athletes;
    leaderboard := SortDesc(board, EntryPoints);
  }

  /** Entries of equal points appear on the leaderboard in row order. */
  lemma LeaderboardStable(board: seq<Entry>, points: int)
    ensures WithKey(SortDesc(board, EntryPoints), EntryPoints, points) == WithKey(board, EntryPoints, points)
  {
    SortStable(board, EntryPoints, points);
  }

  /** The entries half of `FailedAthleteSkipped`, by induction on the rows
      after the failed one. */
  lemma {:induction false} EntriesOfFailed(before: seq<AthleteRow>, row: AthleteRow, after: seq<AthleteRow>,
                                           exchange: string -> Result<TokenGrant>,
                                           fetch: (string, int) -> Result<seq<Activity>>, monthStart: int)
    requires SyncRow(row, exchange, fetch, monthStart).entry.None?
    ensures Entries(before + [row] + after, exchange, fetch, monthStart)
         == Entries(before, exchange, fetch, monthStart) + Entries(after, exchange, fetch, monthStart)
    decreases |after|
  {
    if after == [] {
      assert before + [row] + after == before + [row];
      assert (before + [row])[..|before|] == before;
    } else {
      var init := after[..|after| - 1];
      EntriesOfFailed(before, row, init, exchange, fetch, monthStart);
      assert (before + [row] + after)[..|before + [row] + after| - 1] == before + [row] + init;
      assert (before + [row] + after)[|before + [row] + after| - 1] == after[|after| - 1];
    }
  }

  /** An athlete whose token refresh or activity request fails adds no entry
      and leaves Stats as the rows before it left it; the rows after it are
      still processed. */
  lemma FailedAthleteSkipped(stats: seq<ScoreRow>, before: seq<AthleteRow>, row: AthleteRow,
                             after: seq<AthleteRow>,
                             exchange: string -> Result<TokenGrant>,
                             fetch: (string, int) -> Result<seq<Activity>>, monthStart: int)
    requires exchange(row.refreshToken).Err? || fetch(exchange(row.refreshToken).value.accessToken, monthStart).Err?
    ensures Entries(before + [row] + after, exchange, fetch, monthStart)
         == Entries(before, exchange, fetch, monthStart) + Entries(after, exchange, fetch, monthStart)
    ensures StatsAfter(stats, before + [row] + after, exchange, fetch, monthStart)
         == StatsAfter(StatsAfter(stats, before, exchange, fetch, monthStart), after, exchange, fetch, monthStart)
  {
    EntriesOfFailed(before, row, after, exchange, fetch, monthStart);
    StatsAfterAppend(stats, before + [row], after, exchange, fetch, monthStart);
    StatsAfterSnoc(stats, before, row, exchange, fetch, monthStart);
  }

  /** The entries half of `SyncedAthleteCounted`, by induction on the rows
      after the synced one. */
  lemma {:induction false} EntriesOfSynced(before: seq<AthleteRow>, row: AthleteRow, after: seq<AthleteRow>,
                                           exchange: string -> Result<TokenGrant>,
                                           fetch: (string, int) -> Result<seq<Activity>>, monthStart: int)
    requires SyncRow(row, exchange, fetch, monthStart).entry.Some?
    ensures Entries(before + [row] + after, exchange, fetch, monthStart)
         == Entries(before, exchange, fetch, monthStart) + [SyncRow(row, exchange, fetch, monthStart).entry.value]
            + Entries(after, exchange, fetch, monthStart)
    decreases |after|
  {
    if after == [] {
      assert before + [row] + after == before + [row];
      assert (before + [row])[..|before|] == before;
    } else {
      var init := after[..|after| - 1];
      EntriesOfSynced(before, row, init, exchange, fetch, monthStart);
      assert (before + [row] + after)[..|before + [row] + after| - 1] == before + [row] + init;
      assert (before + [row] + after)[|before + [row] + after| - 1] == after[|after| - 1];
    }
  }

  /** An athlete whose token refresh and activity request both succeed adds
      its entry at its place in row order, whatever its points (zero
      included), and has its score recorded in Stats after those of the rows
      before it; the rows after it are still processed. */
  lemma SyncedAthleteCounted(stats: seq<ScoreRow>, before: seq<AthleteRow>, row: AthleteRow,
                             after: seq<AthleteRow>,
                             exchange: string -> Result<TokenGrant>,
                             fetch: (string, int) -> Result<seq<Activity>>, monthStart: int)
    requires exchange(row.refreshToken).Ok? && fetch(exchange(row.refreshToken).value.accessToken, monthStart).Ok?
    ensures SyncRow(row, exchange, fetch, monthStart).entry.Some?
    ensures Entries(before + [row] + after, exchange, fetch, monthStart)
         == Entries(before, exchange, fetch, monthStart) + [SyncRow(row, exchange, fetch, monthStart).entry.value]
            + Entries(after, exchange, fetch, monthStart)
    ensures StatsAfter(stats, before + [row] + after, exchange, fetch, monthStart)
         == StatsAfter(RecordScore(StatsAfter(stats, before, exchange, fetch, monthStart), row,
                                   SyncRow(row, exchange, fetch, monthStart).entry.value),
                       after, exchange, fetch, monthStart)
  {
    EntriesOfSynced(before, row, after, exchange, fetch, monthStart);
    StatsAfterAppend(stats, before + [row], after, exchange, fetch, monthStart);
    StatsAfterSnoc(stats, before, row, exchange, fetch, monthStart);
  }
}

=== FILE: club_config.dfy ===
/** The date window of the club sync: hard-coded defaults, overridden by the
    optional `Config` tab, one key/value pair per row. */
module ClubConfig {
  import opened Wrappers
  import opened Strava
  import opened Sheets

  datatype Window = Window(start: Timestamp, end: Timestamp)

  /** `new Date('2026-02-01')`, midnight UTC. */
  const DefaultStart: Timestamp := 1769904000000
  /** `new Date('2026-12-31')`, midnight UTC. */
  const DefaultEnd: Timestamp := 1798675200000
  const DefaultWindow: Window := Window(DefaultStart, DefaultEnd)

  const StartKey: string := "START_DATE"
  const EndKey: string := "END_DATE"

  /** `row.get('Key') || row._rawData[0]`. */
  function KeyOf(row: ConfigRow): (k: string)
    ensures row.keyCell != "" ==> k == row.keyCell
    ensures row.keyCell == "" && |row.raw| > 0 ==> k == row.raw[0]
    ensures row.keyCell == "" && |row.raw| == 0 ==> k == ""
  {
    if row.keyCell != "" then row.keyCell
    else if |row.raw| > 0 then row.raw[0]
    else ""
  }

  /** `row.get('Value') || row._rawData[1]`. */
  function ValueOf(row: ConfigRow): (v: string)
    ensures row.valueCell != "" ==> v == row.valueCell
    ensures row.valueCell == "" && |row.raw| > 1 ==> v == row.raw[1]
    ensures row.valueCell == "" && |row.raw| <= 1 ==> v == ""
  {
    if row.valueCell != "" then row.valueCell
    else if |row.raw| > 1 then row.raw[1]
    else ""
  }

  /** A row sets `key` when its key is exactly `key` and its value is non-empty. */
  function Sets(row: ConfigRow, key: string): (b: bool)
    ensures key != "" ==>
      (b <==> && (row.keyCell == key || (row.keyCell == "" && |row.raw| > 0 && row.raw[0] == key))
              && (row.valueCell != "" || (|row.raw| > 1 && row.raw[1] != "")))
  {
    KeyOf(row) == key && ValueOf(row) != ""
  }

  /** One step of the `rows.forEach`: a START_DATE row moves the start, an
      END_DATE row moves the end to the end of its day, any other row changes
      nothing. `parseDate` is `new Date(value)` and `endOfDay` is
      `setHours(23, 59, 59, 999)`, both supplied by the caller. */
  function ApplyRow(w: Window, row: ConfigRow, parseDate: string -> Timestamp,
                    endOfDay: Timestamp -> Timestamp): (r: Window)
    ensures Sets(row, StartKey) ==> r == w.(start := parseDate(ValueOf(row)))
    ensures Sets(row, EndKey) ==> r == w.(end := endOfDay(parseDate(ValueOf(row))))
    ensures !Sets(row, StartKey) && !Sets(row, EndKey) ==> r == w
  {
    var key := KeyOf(row);
    var value := ValueOf(row);
    var w1 := if key == StartKey && value != "" then w.(start := parseDate(value)) else w;
    if key == EndKey && value != "" then w1.(end := endOfDay(parseDate(value))) else w1
  }

  /** The whole `rows.forEach`, first row first. */
  function ApplyRows(w: Window, rows: seq<ConfigRow>, parseDate: string -> Timestamp,
                     endOfDay: Timestamp -> Timestamp): (r: Window)
    ensures (forall i :: 0 <= i < |rows| ==> !Sets(rows[i], StartKey)) ==> r.start == w.start
    ensures (forall i :: 0 <= i < |rows| ==> !Sets(rows[i], EndKey)) ==> r.end == w.end
    decreases |rows|
  {
    if rows == [] then w
    else ApplyRows(ApplyRow(w, rows[0], parseDate, endOfDay), rows[1..], parseDate, endOfDay)
  }

  /** The value of the last row that sets `key`, if any row does. */
  function LastSetting(rows: seq<ConfigRow>, key: string): (v: Option<string>)
    ensures v.Some? ==> v.value != ""
    ensures v.None? <==> forall i :: 0 <= i < |rows| ==> !Sets(rows[i], key)
    ensures v.Some? ==> exists i :: 0 <= i < |rows| && Sets(rows[i], key) && v.value == ValueOf(rows[i])
                                    && forall j :: i < j < |rows| ==> !Sets(rows[j], key)
  {
    if rows == [] then None
    else
      var last := rows[|rows| - 1];
      if Sets(last, key) then Some(ValueOf(last))
      else
        var v := LastSetting(rows[..|rows| - 1], key);
        assert forall i :: 0 <= i < |rows| - 1 ==> rows[..|rows| - 1][i] == rows[i];
        v
  }

  lemma {:induction false} ApplyRowsSnoc(w: Window, rows: seq<ConfigRow>, row: ConfigRow,
                                         parseDate: string -> Timestamp, endOfDay: Timestamp -> Timestamp)
    ensures ApplyRows(w, rows + [row], parseDate, endOfDay)
         == ApplyRow(ApplyRows(w, rows, parseDate, endOfDay), row, parseDate, endOfDay)
    decreases |rows|
  {
    if rows == [] {
      assert rows + [row] == [row];
    } else {
      assert (rows + [row])[1..] == rows[1..] + [row];
      ApplyRowsSnoc(ApplyRow(w, rows[0], parseDate, endOfDay), rows[1..], row, parseDate, endOfDay);
    }
  }

  /** Last one wins: after all rows, the start is the parsed value of the last
      START_DATE row and the end the end of the day of the last END_DATE row;
      a bound no row sets keeps its value from `w`. */
  lemma {:induction false} ApplyRowsLastWins(w: Window, rows: seq<ConfigRow>,
                                             parseDate: string -> Timestamp, endOfDay: Timestamp -> Timestamp)
    ensures var r := ApplyRows(w, rows, parseDate, endOfDay);
      && r.start == (match LastSetting(rows, StartKey)
                     case None => w.start
                     case Some(v) => parseDate(v))
      && r.end == (match LastSetting(rows, EndKey)
                   case None => w.end
                   case Some(v) => endOfDay(parseDate(v)))
    decreases |rows|
  {
    if rows != [] {
      var init := rows[..|rows| - 1];
      var last := rows[|rows| - 1];
      assert rows == init + [last];
      ApplyRowsSnoc(w, init, last, parseDate, endOfDay);
      ApplyRowsLastWins(w, init, parseDate, endOfDay);
    }
  }

  /** The effective window: the defaults when the tab is missing or cannot be
      read (`None`), otherwise the defaults overridden by the tab's rows. */
  function ReadConfig(tab: Option<seq<ConfigRow>>, parseDate: string -> Timestamp,
                      endOfDay: Timestamp -> Timestamp): (w: Window)
    ensures tab.None? ==> w == DefaultWindow
    ensures tab.Some? ==>
      && w.start == (match LastSetting(tab.value, StartKey)
                     case None => DefaultStart
                     case Some(v) => parseDate(v))
      && w.end == (match LastSetting(tab.value, EndKey)
                   case None => DefaultEnd
                   case Some(v) => endOfDay(parseDate(v)))
  {
    match tab
    case None => DefaultWindow
    case Some(rows) =>
      ApplyRowsLastWins(DefaultWindow, rows, parseDate, endOfDay);
      ApplyRows(DefaultWindow, rows, parseDate, endOfDay)
  }
}

=== FILE: club_feed.dfy ===
/** Gathering the club sync's activities: first each verified athlete's own
    feed, then the club-wide feed page by page, dropping club activities of
    athletes already covered by a verified feed. */
module ClubFeed {
  import opened Wrappers
  import opened Strava
  import opened Sheets
  import opened ClubNames
  import opened ClubConfig

  /** Where an activity came from. A verified activity carries the full name of
      the Athletes row it was fetched for (`_isVerified`, `_athleteName`). */
  datatype Source = Verified(fullName: string) | Club
  datatype Tagged = Tagged(act: Activity, source: Source)

  /** `per_page` of the per-athlete request. */
  const VerifiedPerPage: nat := 100
  /** `per_page` of the club request. */
  const PerPage: nat := 200
  /** The club loop stops once the page number passes this. */
  const MaxPages: nat := 10

  /** `after`/`before` of the per-athlete request: the window in Unix seconds. */
  function VerifiedQuery(w: Window): (q: ActivityQuery)
    ensures q.after * 1000 <= w.start < q.after * 1000 + 1000
    ensures q.before * 1000 <= w.end < q.before * 1000 + 1000
    ensures q.perPage == VerifiedPerPage
  {
    ActivityQuery(UnixSeconds(w.start), UnixSeconds(w.end), VerifiedPerPage)
  }

  /** The activities one Athletes row contributes: `None` when the row has no
      refresh token (skipped) or when the token exchange or the activity
      request throws (logged and skipped). */
  function AthleteFeed(row: AthleteRow, w: Window,
                       exchange: string -> Result<TokenGrant>,
                       fetch: (string, ActivityQuery) -> Result<seq<Activity>>): (r: Option<seq<Activity>>)
    ensures r.Some? <==>
      && row.refreshToken != ""
      && exchange(row.refreshToken).Ok?
      && fetch(exchange(row.refreshToken).value.accessToken, VerifiedQuery(w)).Ok?
    ensures r.Some? ==> r.value == fetch(exchange(row.refreshToken).value.accessToken, VerifiedQuery(w)).value
  {
    if row.refreshToken == "" then None
    else match exchange(row.refreshToken)
      case Err(_) => None
      case Ok(grant) =>
        match fetch(grant.accessToken, VerifiedQuery(w))
        case Err(_) => None
        case Ok(acts) => Some(acts)
  }

  function TagVerified(acts: seq<Activity>, fullName: string): (r: seq<Tagged>)
    ensures |r| == |acts|
    ensures forall i :: 0 <= i < |r| ==> r[i].act == acts[i] && r[i].source == Verified(fullName)
  {
    seq(|acts|, i requires 0 <= i < |acts| => Tagged(acts[i], Verified(fullName)))
  }

  /** The verified activities and the names to exclude from the club feed. */
  datatype VerifiedSet = VerifiedSet(acts: seq<Tagged>, excluded: set<string>)

  /** Whether a row contributes a feed: it has a token and both requests succeed. */
  predicate Synced(row: AthleteRow, w: Window,
                   exchange: string -> Result<TokenGrant>,
                   fetch: (string, ActivityQuery) -> Result<seq<Activity>>)
  {
    AthleteFeed(row, w, exchange, fetch).Some?
  }

  /** The loop over the Athletes rows: the activities of every synced row in row
      order, each tagged with its row's name, and the set of names to exclude
      (`CollectVerifiedComplete`, `CollectVerifiedSound`). */
  function CollectVerified(rows: seq<AthleteRow>, w: Window,
                           exchange: string -> Result<TokenGrant>,
                           fetch: (string, ActivityQuery) -> Result<seq<Activity>>): (v: VerifiedSet)
    ensures forall t :: t in v.acts ==> t.source.Verified? && t.source.fullName in v.excluded
    decreases |rows|
  {
    if rows == [] then VerifiedSet([], {})
    else
      var rest := CollectVerified(rows[1..], w, exchange, fetch);
      match AthleteFeed(rows[0], w, exchange, fetch)
      case None => rest
      case Some(acts) =>
        var name := rows[0].name;
        VerifiedSet(TagVerified(acts, name) + rest.acts, {name, ToClubName(name)} + rest.excluded)
  }

  /** A synced row's name and its "First L." form are both excluded. */
  lemma {:induction false} CollectVerifiedComplete(rows: seq<AthleteRow>, w: Window,
                                                   exchange: string -> Result<TokenGrant>,
                                                   fetch: (string, ActivityQuery) -> Result<seq<Activity>>)
    ensures forall i :: 0 <= i < |rows| && Synced(rows[i], w, exchange, fetch) ==>
      rows[i].name in CollectVerified(rows, w, exchange, fetch).excluded &&
      ToClubName(rows[i].name) in CollectVerified(rows, w, exchange, fetch).excluded
    decreases |rows|
  {
    if rows != [] {
      CollectVerifiedComplete(rows[1..], w, exchange, fetch);
      assert forall i :: 1 <= i < |rows| ==> rows[1..][i - 1] == rows[i];
    }
  }

  /** Every excluded name is the name, or the "First L." form, of a synced row. */
  lemma {:induction false} CollectVerifiedSound(rows: seq<AthleteRow>, w: Window,
                                                exchange: string -> Result<TokenGrant>,
                                                fetch: (string, ActivityQuery) -> Result<seq<Activity>>)
    ensures forall x :: x in CollectVerified(rows, w, exchange, fetch).excluded ==>
      exists i :: 0 <= i < |rows| && Synced(rows[i], w, exchange, fetch)
                  && (x == rows[i].name || x == ToClubName(rows[i].name))
    decreases |rows|
  {
    if rows != [] {
      CollectVerifiedSound(rows[1..], w, exchange, fetch);
      var rest := CollectVerified(rows[1..], w, exchange, fetch);
      forall x | x in CollectVerified(rows, w, exchange, fetch).excluded
        ensures exists i :: 0 <= i < |rows| && Synced(rows[i], w, exchange, fetch)
                            && (x == rows[i].name || x == ToClubName(rows[i].name))
      {
        if x in rest.excluded {
          var i :| 0 <= i < |rows[1..]| && Synced(rows[1..][i], w, exchange, fetch)
                   && (x == rows[1..][i].name || x == ToClubName(rows[1..][i].name));
          assert rows[1..][i] == rows[i + 1];
        } else {
          assert Synced(rows[0], w, exchange, fetch);
        }
      }
    }
  }

  /** The activities one row contributes: its feed tagged with its name, or
      nothing when the row is not synced. */
  function RowActs(row: AthleteRow, w: Window,
                   exchange: string -> Result<TokenGrant>,
                   fetch: (string, ActivityQuery) -> Result<seq<Activity>>): (r: seq<Tagged>)
    ensures AthleteFeed(row, w, exchange, fetch).None? ==> r == []
    ensures AthleteFeed(row, w, exchange, fetch).Some? ==>
      r == TagVerified(AthleteFeed(row, w, exchange, fetch).value, row.name)
  {
    match AthleteFeed(row, w, exchange, fetch)
    case None => []
    case Some(acts) => TagVerified(acts, row.name)
  }

  /** The per-row feeds flattened in row order: an independent statement of
      which activities the verified list holds. */
  function FlattenActs(rows: seq<AthleteRow>, w: Window,
                       exchange: string -> Result<TokenGrant>,
                       fetch: (string, ActivityQuery) -> Result<seq<Activity>>): seq<Tagged>
  {
    if rows == [] then [] else RowActs(rows[0], w, exchange, fetch) + FlattenActs(rows[1..], w, exchange, fetch)
  }

  /** The verified list is exactly the flattened per-row feeds. */
  lemma {:induction false} CollectVerifiedFlatten(rows: seq<AthleteRow>, w: Window,
                                                  exchange: string -> Result<TokenGrant>,
                                                  fetch: (string, ActivityQuery) -> Result<seq<Activity>>)
    ensures CollectVerified(rows, w, exchange, fetch).acts == FlattenActs(rows, w, exchange, fetch)
  {
    if rows != [] {
      CollectVerifiedFlatten(rows[1..], w, exchange, fetch);
    }
  }

  lemma {:induction false} FlattenActsAppend(a: seq<AthleteRow>, b: seq<AthleteRow>, w: Window,
                                             exchange: string -> Result<TokenGrant>,
                                             fetch: (string, ActivityQuery) -> Result<seq<Activity>>)
    ensures FlattenActs(a + b, w, exchange, fetch)
         == FlattenActs(a, w, exchange, fetch) + FlattenActs(b, w, exchange, fetch)
    decreases |a|
  {
    if a == [] {
      assert a + b == b;
    } else {
      assert (a + b)[0] == a[0];
      assert (a + b)[1..] == a[1..] + b;
      FlattenActsAppend(a[1..], b, w, exchange, fetch);
    }
  }

  /** In the flattened feeds, row `i`'s block sits between those of the rows
      before and after it. */
  lemma FlattenActsBlock(rows: seq<AthleteRow>, i: nat, w: Window,
                         exchange: string -> Result<TokenGrant>,
                         fetch: (string, ActivityQuery) -> Result<seq<Activity>>)
    requires i < |rows|
    ensures FlattenActs(rows, w, exchange, fetch)
         == FlattenActs(rows[..i], w, exchange, fetch) + RowActs(rows[i], w, exchange, fetch)
            + FlattenActs(rows[i + 1..], w, exchange, fetch)
  {
    var pre, post := rows[..i], rows[i + 1..];
    var tail := [rows[i]] + post;
    var row := RowActs(rows[i], w, exchange, fetch);
    assert FlattenActs(tail, w, exchange, fetch) == row + FlattenActs(post, w, exchange, fetch) by {
      assert tail[0] == rows[i] && tail[1..] == post;
    }
    assert rows == pre + tail;
    FlattenActsAppend(pre, tail, w, exchange, fetch);
    assert FlattenActs(pre, w, exchange, fetch) + (row + FlattenActs(post, w, exchange, fetch))
        == FlattenActs(pre, w, exchange, fetch) + row + FlattenActs(post, w, exchange, fetch);
  }

  /** Every row's activities form one contiguous block of the verified list,
      after the blocks of the rows before it and before those of the rows
      after it: all fetched activities of a synced row are kept, in order,
      tagged with the row's name, and an unsynced row adds nothing. */
  lemma CollectVerifiedActs(rows: seq<AthleteRow>, i: nat, w: Window,
                            exchange: string -> Result<TokenGrant>,
                            fetch: (string, ActivityQuery) -> Result<seq<Activity>>)
    requires i < |rows|
    ensures CollectVerified(rows, w, exchange, fetch).acts
         == CollectVerified(rows[..i], w, exchange, fetch).acts
            + RowActs(rows[i], w, exchange, fetch)
            + CollectVerified(rows[i + 1..], w, exchange, fetch).acts
  {
    FlattenActsBlock(rows, i, w, exchange, fetch);
    CollectVerifiedFlatten(rows, w, exchange, fetch);
    CollectVerifiedFlatten(rows[..i], w, exchange, fetch);
    CollectVerifiedFlatten(rows[i + 1..], w, exchange, fetch);
  }

  /** The verified part of the run: nothing when the Athletes tab is missing or
      cannot be read (`None`). */
  function VerifiedFeed(tab: Option<seq<AthleteRow>>, w: Window,
                        exchange: string -> Result<TokenGrant>,
                        fetch: (string, ActivityQuery) -> Result<seq<Activity>>): (v: VerifiedSet)
    ensures tab.None? ==> v.acts == [] && v.excluded == {}
    ensures tab.Some? ==> v == CollectVerified(tab.value, w, exchange, fetch)
  {
    match tab
    case None => VerifiedSet([], {})
    case Some(rows) => CollectVerified(rows, w, exchange, fetch)
  }

  /** `${act.athlete.firstname} ${act.athlete.lastname}`. */
  function ClubName(a: Activity): (n: string)
    ensures var first, last := a.athlete.firstname, a.athlete.lastname;
      && |n| == |first| + 1 + |last|
      && n[..|first|] == first && n[|first|] == ' ' && n[|first| + 1..] == last
  {
    DisplayName(a.athlete.firstname, a.athlete.lastname)
  }

  /** The dedup filter over one club page: an activity is kept, tagged as a
      club activity, exactly when its display name is not excluded; order is
      kept (`KeepUnverifiedSound`, `KeepUnverifiedComplete`). */
  function KeepUnverified(page: seq<Activity>, excluded: set<string>): (r: seq<Tagged>)
    ensures |r| <= |page|
  {
    if page == [] then []
    else
      var rest := KeepUnverified(page[1..], excluded);
      if ClubName(page[0]) in excluded then rest else [Tagged(page[0], Club)] + rest
  }

  /** Everything kept is a club activity of the page whose name is not excluded. */
  lemma {:induction false} KeepUnverifiedSound(page: seq<Activity>, excluded: set<string>)
    ensures forall t :: t in KeepUnverified(page, excluded) ==>
      t.source == Club && t.act in page && ClubName(t.act) !in excluded
  {
    if page != [] {
      KeepUnverifiedSound(page[1..], excluded);
      assert forall a :: a in page[1..] ==> a in page;
    }
  }

  /** Every activity of the page whose name is not excluded is kept. */
  lemma {:induction false} KeepUnverifiedComplete(page: seq<Activity>, excluded: set<string>)
    ensures forall a :: a in page && ClubName(a) !in excluded ==> Tagged(a, Club) in KeepUnverified(page, excluded)
  {
    if page != [] {
      KeepUnverifiedComplete(page[1..], excluded);
      assert forall a :: a in page ==> a == page[0] || a in page[1..];
    }
  }

  lemma {:induction false} KeepUnverifiedAppend(a: seq<Activity>, b: seq<Activity>, excluded: set<string>)
    ensures KeepUnverified(a + b, excluded) == KeepUnverified(a, excluded) + KeepUnverified(b, excluded)
    decreases |a|
  {
    if a == [] {
      assert a + b == b;
    } else {
      assert (a + b)[0] == a[0];
      assert (a + b)[1..] == a[1..] + b;
      KeepUnverifiedAppend(a[1..], b, excluded);
    }
  }

  /** The club shows "Jane D." and "John D."; neither name is "Jane Doe", and
      only the first is "Jane D.". */
  lemma ClubInitials()
    ensures DisplayName("Jane", "D.") == "Jane D."
    ensures DisplayName("John", "D.") !in {"Jane Doe", "Jane D."}
  {
    assert DisplayName("John", "D.")[1] == 'o';
  }

  /** Verified "Jane Doe" (whose club form is "Jane D.", `ClubNameOfJaneDoe`)
      hides the club's "Jane D." but not "John D.". */
  lemma DedupByClubName(jane: Activity, john: Activity)
    requires jane.athlete.firstname == "Jane" && jane.athlete.lastname == "D."
    requires john.athlete.firstname == "John" && john.athlete.lastname == "D."
    ensures KeepUnverified([jane, john], {"Jane Doe", "Jane D."}) == [Tagged(john, Club)]
  {
    ClubInitials();
    assert [jane, john][1..] == [john];
  }

  /** The answer to the request for club page `p`. */
  function PageAt(fetch: ClubQuery -> PageResult, after: int, p: nat): PageResult {
    fetch(ClubQuery(p, PerPage, after))
  }

  /** Whether the loop asks for another page after this answer: only after a
      successful page holding at least `PerPage` activities. */
  function Continues(r: PageResult): (b: bool)
    ensures b <==> |PageItems(r)| >= PerPage
    ensures r.PageFailed? || (r.Page? && r.items == []) ==> !b
  {
    r.Page? && |r.items| >= PerPage
  }

  function PageItems(r: PageResult): seq<Activity> {
    if r.Page? then r.items else []
  }

  /** All activities on pages 1..n, in page order. */
  function Gathered(fetch: ClubQuery -> PageResult, after: int, n: nat): (r: seq<Activity>)
    ensures forall a :: a in r ==> exists p :: 1 <= p <= n && a in PageItems(PageAt(fetch, after, p))
    ensures forall p, a :: 1 <= p <= n && a in PageItems(PageAt(fetch, after, p)) ==> a in r
  {
    if n == 0 then [] else Gathered(fetch, after, n - 1) + PageItems(PageAt(fetch, after, n))
  }

  lemma {:induction false} GatheredBound(fetch: ClubQuery -> PageResult, after: int, n: nat)
    requires forall p :: 1 <= p <= n ==> |PageItems(PageAt(fetch, after, p))| <= PerPage
    ensures |Gathered(fetch, after, n)| <= n * PerPage
  {
    if n > 0 {
      GatheredBound(fetch, after, n - 1);
    }
  }

  /** Pages 1..n were all full, so the loop asked for each next page. */
  predicate FullPages(fetch: ClubQuery -> PageResult, after: int, n: nat)
    decreases n
  {
    n == 0 || (FullPages(fetch, after, n - 1) && Continues(PageAt(fetch, after, n)))
  }

  lemma {:induction false} FullPagesMeans(fetch: ClubQuery -> PageResult, after: int, n: nat)
    ensures FullPages(fetch, after, n) <==> forall p :: 1 <= p <= n ==> Continues(PageAt(fetch, after, p))
  {
    if n > 0 {
      FullPagesMeans(fetch, after, n - 1);
    }
  }

  /** One turn of the club loop: appending the kept part of page n to what was
      kept from pages 1..n-1 gives what is kept from pages 1..n. */
  lemma GatherStep(all: seq<Tagged>, acts: seq<Tagged>, fetch: ClubQuery -> PageResult,
                   after: int, n: nat, excluded: set<string>)
    requires n >= 1
    requires all == acts + KeepUnverified(Gathered(fetch, after, n - 1), excluded)
    ensures all + KeepUnverified(PageItems(PageAt(fetch, after, n)), excluded)
         == acts + KeepUnverified(Gathered(fetch, after, n), excluded)
  {
    KeepUnverifiedAppend(Gathered(fetch, after, n - 1), PageItems(PageAt(fetch, after, n)), excluded);
  }

  /** The paginated club loop. It asks for pages 1, 2, ... and goes on only
      after a full page, so it stops after a failed, empty or short page or
      once page `MaxPages` has been read. Club activities of excluded names are
      dropped and the rest are appended after the verified activities. */
  method FetchClubFeed(verified: VerifiedSet, after: int, fetch: ClubQuery -> PageResult)
    returns (all: seq<Tagged>, requested: nat)
    ensures 1 <= requested <= MaxPages
    ensures forall p :: 1 <= p < requested ==> Continues(PageAt(fetch, after, p))
    ensures requested == MaxPages || !Continues(PageAt(fetch, after, requested))
    ensures all == verified.acts + KeepUnverified(Gathered(fetch, after, requested), verified.excluded)
    ensures (forall p :: 1 <= p <= MaxPages ==> |PageItems(PageAt(fetch, after, p))| <= PerPage)
            ==> |all| <= |verified.acts| + MaxPages * PerPage
  {
    all := verified.acts;
    var page: nat := 1;
    var keepFetching := true;
    requested := 0;
    while keepFetching
      invariant requested <= MaxPages
      invariant keepFetching ==> requested + 1 == page <= MaxPages && FullPages(fetch, after, requested)
      invariant !keepFetching ==> 1 <= requested && FullPages(fetch, after, requested - 1)
      invariant !keepFetching ==> requested == MaxPages || !Continues(PageAt(fetch, after, requested))
      invariant all == verified.acts + KeepUnverified(Gathered(fetch, after, requested), verified.excluded)
      decreases MaxPages - requested
    {
      requested := page;
      var res := PageAt(fetch, after, page);
      GatherStep(all, verified.acts, fetch, after, requested, verified.excluded);
      if res.PageFailed? {
        assert KeepUnverified(PageItems(res), verified.excluded) == [];
        keepFetching := false;
      } else if |res.items| == 0 {
        // an empty page ends the loop at once (the source breaks out here)
        assert KeepUnverified(PageItems(res), verified.excluded) == [];
        keepFetching := false;
      } else {
        all := all + KeepUnverified(res.items, verified.excluded);
        if |res.items| < PerPage {
          keepFetching := false;
        }
        page := page + 1;
        if page > MaxPages {
          keepFetching := false;
        }
      }
    }
    FullPagesMeans(fetch, after, requested - 1);
    if forall p :: 1 <= p <= MaxPages ==> |PageItems(PageAt(fetch, after, p))| <= PerPage {
      GatheredBound(fetch, after, requested);
    }
  }
}

=== FILE: club_names.dfy ===
/** Name handling of the club sync: the club feed only shows "First L."
    display names, so verified athletes' full names are converted to that form,
    and club athletes without an id get an id made from their name. */
module ClubNames {
  import opened Text

  /** `toClubName`: "First L." from a full name, using the first and the last
      space-separated word of the trimmed name. An empty name gives "", and a
      trimmed name without a space is returned as it is. */
  function ToClubName(fullName: string): (r: string)
    ensures fullName == "" ==> r == ""
    ensures fullName != "" && ' ' !in Trim(fullName) ==> r == Trim(fullName)
    ensures fullName != "" && ' ' in Trim(fullName) ==>
      var t := Trim(fullName);
      && 0 <= LastIndexOf(t, ' ') < |t| - 1
      && r == t[..IndexOf(t, ' ')] + " " + [t[LastIndexOf(t, ' ') + 1]] + "."
  {
    if fullName == "" then ""
    else
      var t := Trim(fullName);
      var parts := Split(t, ' ');
      SplitPieces(t, ' ');
      if |parts| == 1 then parts[0]
      else
        WordsOfName(t);
        parts[0] + " " + [parts[|parts| - 1][0]] + "."
  }

  /** The first and last pieces of a trimmed multi-word name, located in the name. */
  lemma WordsOfName(t: string)
    requires ' ' in t && !IsSpace(t[|t| - 1])
    ensures 0 <= LastIndexOf(t, ' ') < |t| - 1
    ensures Split(t, ' ')[0] == t[..IndexOf(t, ' ')]
    ensures Last(Split(t, ' ')) == t[LastIndexOf(t, ' ') + 1..]
  {
    SplitFirst(t, ' ');
    SplitLast(t, ' ');
    var k :| 0 <= k < |t| && t[k] == ' ';
  }

  /** In "first last" the only space is the one between the words. */
  lemma SpaceOfTwoWords(first: string, last: string)
    requires first != [] && last != [] && NoSpace(first) && NoSpace(last)
    ensures IndexOf(first + " " + last, ' ') == |first|
    ensures LastIndexOf(first + " " + last, ' ') == |first|
  {
    var t := first + " " + last;
    var n := |first|;
    assert t[n] == ' ';
    assert forall m :: 0 <= m < n ==> t[m] == first[m];
    assert forall m :: n < m < |t| ==> t[m] == last[m - n - 1];
  }

  /** A name of two words gives the first word and the initial of the second. */
  lemma ClubNameOfTwoWords(first: string, last: string)
    requires first != [] && last != [] && NoSpace(first) && NoSpace(last)
    ensures ToClubName(first + " " + last) == first + " " + [last[0]] + "."
  {
    var t := first + " " + last;
    SpaceOfTwoWords(first, last);
    assert Trim(t) == t by {
      assert !IsSpace(t[0]) && !IsSpace(t[|t| - 1]);
      TrimUntouched(t);
    }
    assert t[..|first|] == first;
    assert t[|first| + 1] == last[0];
  }

  /** A verified athlete "Jane Doe" appears in the club feed as "Jane D.". */
  lemma ClubNameOfJaneDoe()
    ensures ToClubName("Jane Doe") == "Jane D."
  {
    var first, last := "Jane", "Doe";
    assert NoSpace(first) && NoSpace(last);
    ClubNameOfTwoWords(first, last);
    assert first + " " + last == "Jane Doe";
    assert first + " " + [last[0]] + "." == "Jane D.";
  }

  /** A multi-word name always yields "<word> <initial>.": a non-empty word
      without spaces, one space, one character and a dot. */
  lemma ClubNameShape(fullName: string)
    requires ' ' in Trim(fullName)
    ensures var r := ToClubName(fullName);
      && |r| >= 4 && r[|r| - 1] == '.' && r[|r| - 3] == ' '
      && r[..|r| - 3] != [] && ' ' !in r[..|r| - 3]
  {
    var t := Trim(fullName);
    var k := IndexOf(t, ' ');
    var initial := [t[LastIndexOf(t, ' ') + 1]];
    var r := ToClubName(fullName);
    assert r == t[..k] + " " + initial + "." by {
      assert fullName != "";
    }
    assert k > 0 by {
      assert t[0] != ' ';
    }
    assert r[..|r| - 3] == t[..k];
    assert ' ' !in t[..k];
  }

  /** `athlete.firstname + " " + athlete.lastname`, the name the club feed shows. */
  function DisplayName(firstname: string, lastname: string): string {
    firstname + " " + lastname
  }

  /** `name.replace(/\s+/g, '_').toLowerCase()`: an id made from a name. It
      holds no whitespace and no upper-case ASCII letter, and a name that
      already has neither is its own slug. */
  function Slug(name: string): (r: string)
    ensures |r| <= |name|
    ensures NoSpace(r)
    ensures forall i :: 0 <= i < |r| ==> !IsUpperAscii(r[i])
    ensures NoSpace(name) && (forall i :: 0 <= i < |name| ==> !IsUpperAscii(name[i])) ==> r == name
  {
    var collapsed := CollapseSpaces(name);
    var r := ToLowerAscii(collapsed);
    assert forall i :: 0 <= i < |r| ==> !IsSpace(r[i]) by {
      forall i | 0 <= i < |r| ensures !IsSpace(r[i]) {
        assert r[i] == LowerAscii(collapsed[i]);
      }
    }
    r
  }

  /** The slug of a two-word display name joins the words with one `_`. */
  lemma SlugOfDisplayName(firstname: string, lastname: string)
    requires firstname != [] && lastname != [] && NoSpace(firstname) && NoSpace(lastname)
    ensures Slug(DisplayName(firstname, lastname)) == ToLowerAscii(firstname + "_" + lastname)
  {
    assert AllSpace(" ");
    CollapseWordThenGap(firstname, " ", lastname);
    assert DisplayName(firstname, lastname) == firstname + " " + lastname;
  }
}

=== FILE: club_stats.dfy ===
/** The end of the club sync: the gathered activities sorted newest first, each
    turned into a Stats row, and the Stats tab replaced by those rows; and the
    whole run from the Config tab to the Stats write. */
module ClubStats {
  import opened Wrappers
  import opened Strava
  import opened Sheets
  import opened Text
  import opened Ordering
  import opened ClubNames
  import opened ClubConfig
  import opened ClubFeed

  /** The date an activity sorts by: its local start date, or the window start
      when the feed gives none. */
  function DateOf(t: Tagged, start: Timestamp): (d: Timestamp)
    ensures t.act.startDateLocal.Some? ==> d == t.act.startDateLocal.value
    ensures t.act.startDateLocal.None? ==> d == start
  {
    t.act.startDateLocal.GetOr(start)
  }

  function ByDate(start: Timestamp): Tagged -> int {
    t => DateOf(t, start)
  }

  /** The `athlete_id` of a club activity: the feed's id when it is truthy
      (present and non-zero), otherwise the display name with every whitespace
      run replaced by `_` and lower-cased. */
  function ClubAthleteKey(a: Activity): (k: AthleteKey)
    ensures k.NumericId? ==> a.athlete.id == Some(k.id) && k.id != 0
    ensures k.NameSlug? ==> (a.athlete.id == None || a.athlete.id == Some(0)) && k.slug == Slug(ClubName(a))
    ensures k.NameSlug? ==> NoSpace(k.slug) && forall i :: 0 <= i < |k.slug| ==> !IsUpperAscii(k.slug[i])
  {
    match a.athlete.id
    case Some(id) => if id != 0 then NumericId(id) else NameSlug(Slug(ClubName(a)))
    case None => NameSlug(Slug(ClubName(a)))
  }

  /** One Stats row. A verified activity keeps the Athletes row's full name, its
      own id and its own date (which may be missing); a club activity gets its
      display name, a synthesised id and always a date, the window start
      standing in for a missing one. Either way the written date, read with the
      same fallback, is the date the list was sorted by. */
  function ToRow(t: Tagged, start: Timestamp): (r: ActivityRow)
    ensures r.kind == t.act.kind && r.distanceMeters == t.act.distance
    ensures r.movingTime == t.act.movingTime && r.elevationGain == t.act.elevationGain
    ensures r.date.GetOr(start) == DateOf(t, start)
    ensures t.source.Verified? ==>
      && r.name == t.source.fullName
      && r.date == t.act.startDateLocal
      && r.athleteId == (match t.act.athlete.id
                         case Some(n) => Some(NumericId(n))
                         case None => None)
    ensures t.source.Club? ==>
      && r.name == ClubName(t.act)
      && r.date.Some?
      && r.athleteId == Some(ClubAthleteKey(t.act))
  {
    match t.source
    case Verified(fullName) =>
      var id := match t.act.athlete.id
        case Some(n) => Some(NumericId(n))
        case None => None;
      ActivityRow(id, fullName, t.act.kind, t.act.distance, t.act.movingTime,
                  t.act.elevationGain, t.act.startDateLocal)
    case Club =>
      ActivityRow(Some(ClubAthleteKey(t.act)), ClubName(t.act), t.act.kind, t.act.distance,
                  t.act.movingTime, t.act.elevationGain, Some(t.act.startDateLocal.GetOr(start)))
  }

  /** `allActivities.map(...)`: one row per activity, in the same order. */
  function MapRows(acts: seq<Tagged>, start: Timestamp): (rows: seq<ActivityRow>)
    ensures |rows| == |acts|
    ensures forall i :: 0 <= i < |acts| ==> rows[i] == ToRow(acts[i], start)
  {
    seq(|acts|, i requires 0 <= i < |acts| => ToRow(acts[i], start))
  }

  lemma MapRowsCons(x: Tagged, s: seq<Tagged>, start: Timestamp)
    ensures MapRows([x] + s, start) == [ToRow(x, start)] + MapRows(s, start)
  {
    assert forall i :: 1 <= i <= |s| ==> ([x] + s)[i] == s[i - 1];
  }

  /** Mapping after inserting `x` gives the mapped rows plus `x`'s row. */
  lemma {:induction false} MapRowsInsert(x: Tagged, s: seq<Tagged>, start: Timestamp)
    requires SortedDesc(s, ByDate(start))
    ensures multiset(MapRows(Insert(x, s, ByDate(start)), start))
         == multiset{ToRow(x, start)} + multiset(MapRows(s, start))
    decreases |s|
  {
    var key := ByDate(start);
    if s == [] || key(x) >= key(s[0]) {
      MapRowsCons(x, s, start);
    } else {
      assert s == [s[0]] + s[1..];
      MapRowsInsert(x, s[1..], start);
      MapRowsCons(s[0], Insert(x, s[1..], key), start);
      MapRowsCons(s[0], s[1..], start);
    }
  }

  /** Sorting moves rows around but writes each activity's row exactly once. */
  lemma {:induction false} MapRowsSort(s: seq<Tagged>, start: Timestamp)
    ensures multiset(MapRows(SortDesc(s, ByDate(start)), start)) == multiset(MapRows(s, start))
    decreases |s|
  {
    if s != [] {
      var x, rest := s[0], s[1..];
      assert s == [x] + rest;
      MapRowsSort(rest, start);
      MapRowsInsert(x, SortDesc(rest, ByDate(start)), start);
      MapRowsCons(x, rest, start);
    }
  }

  /** The rows written for a gathered list: sorted newest first (stably), then
      mapped. */
  function StatsRows(all: seq<Tagged>, start: Timestamp): (rows: seq<ActivityRow>)
    ensures |rows| == |all|
    ensures forall i, j :: 0 <= i < j < |rows| ==> rows[i].date.GetOr(start) >= rows[j].date.GetOr(start)
  {
    var sorted := SortDesc(all, ByDate(start));
    assert forall i :: 0 <= i < |sorted| ==> MapRows(sorted, start)[i].date.GetOr(start) == ByDate(start)(sorted[i]);
    MapRows(sorted, start)
  }

  /** The rows are exactly the gathered activities' rows, each once. */
  lemma StatsRowsPermute(all: seq<Tagged>, start: Timestamp)
    ensures multiset(StatsRows(all, start)) == multiset(MapRows(all, start))
  {
    MapRowsSort(all, start);
  }

  /** Activities of equal date keep their gathered order. */
  lemma StatsRowsStable(all: seq<Tagged>, start: Timestamp, d: int)
    ensures WithKey(SortDesc(all, ByDate(start)), ByDate(start), d) == WithKey(all, ByDate(start), d)
    ensures StatsRows(all, start) == MapRows(SortDesc(all, ByDate(start)), start)
  {
    SortStable(all, ByDate(start), d);
  }

  /** The Stats tab after the write: cleared and refilled with the rows when
      anything was gathered, untouched otherwise. */
  function WriteStats(table: seq<ActivityRow>, all: seq<Tagged>, start: Timestamp): (r: seq<ActivityRow>)
    ensures |all| == 0 ==> r == table
    ensures |all| > 0 ==> |r| == |all|
    ensures |all| > 0 ==> forall i, j :: 0 <= i < j < |r| ==> r[i].date.GetOr(start) >= r[j].date.GetOr(start)
    ensures |all| > 0 ==> multiset(r) == multiset(MapRows(all, start))
    ensures |all| > 0 ==> r == MapRows(SortDesc(all, ByDate(start)), start)
  {
    if |all| > 0 then
      StatsRowsPermute(all, start);
      StatsRows(all, start)
    else table
  }

  /** Rerunning with the same activities leaves the table as it is: the write
      replaces rather than appends, so nothing is duplicated. */
  lemma {:induction false} WriteStatsIdempotent(table: seq<ActivityRow>, all: seq<Tagged>, start: Timestamp)
    ensures WriteStats(WriteStats(table, all, start), all, start) == WriteStats(table, all, start)
    ensures |all| > 0 ==> forall other :: WriteStats(other, all, start) == WriteStats(table, all, start)
  {
  }

  /** The outcome of one club run. `Aborted` is the club token exchange failing
      (the process exits before anything is written). */
  datatype ClubRun =
    | Aborted
    | Completed(window: Window, gathered: seq<Tagged>, pagesRequested: nat, stats: seq<ActivityRow>)

  /** The whole club run: the window from the Config tab, the verified feeds
      from the Athletes tab, the club token, the paginated club feed and the
      Stats write. Tabs that are missing or unreadable are `None`. */
  method SyncClub(configTab: Option<seq<ConfigRow>>, parseDate: string -> Timestamp,
                  endOfDay: Timestamp -> Timestamp,
                  athletesTab: Option<seq<AthleteRow>>,
                  exchange: string -> Result<TokenGrant>,
                  fetch: (string, ActivityQuery) -> Result<seq<Activity>>,
                  clubToken: Result<TokenGrant>,
                  clubPages: (string, ClubQuery) -> PageResult,
                  statsTab: seq<ActivityRow>)
    returns (run: ClubRun)
    ensures clubToken.Err? <==> run.Aborted?
    ensures run.Completed? && clubToken.Ok? ==>
      var w := ReadConfig(configTab, parseDate, endOfDay);
      var v := VerifiedFeed(athletesTab, w, exchange, fetch);
      var pages := (q: ClubQuery) => clubPages(clubToken.value.accessToken, q);
      && run.window == w
      && 1 <= run.pagesRequested <= MaxPages
      && (forall p :: 1 <= p < run.pagesRequested ==> Continues(PageAt(pages, UnixSeconds(w.start), p)))
      && (run.pagesRequested == MaxPages || !Continues(PageAt(pages, UnixSeconds(w.start), run.pagesRequested)))
      && run.gathered == v.acts + KeepUnverified(Gathered(pages, UnixSeconds(w.start), run.pagesRequested), v.excluded)
      && run.stats == WriteStats(statsTab, run.gathered, w.start)
  {
    var w := ReadConfig(configTab, parseDate, endOfDay);
    var v := VerifiedFeed(athletesTab, w, exchange, fetch);
    match clubToken {
      case Err(_) =>
        run := Aborted;
      case Ok(grant) =>
        var pages := (q: ClubQuery) => clubPages(grant.accessToken, q);
        var all, requested := FetchClubFeed(v, UnixSeconds(w.start), pages);
        run := Completed(w, all, requested, WriteStats(statsTab, all, w.start));
    }
  }

  /** In the gathered list every verified activity comes before every club
      activity, and no club activity carries the name, or the "First L." form,
      of an athlete whose own feed was read. */
  lemma {:induction false} GatheredDeduplicated(rows: seq<AthleteRow>, w: Window,
                                                exchange: string -> Result<TokenGrant>,
                                                fetch: (string, ActivityQuery) -> Result<seq<Activity>>,
                                                club: seq<Activity>)
    ensures var v := CollectVerified(rows, w, exchange, fetch);
            var all := v.acts + KeepUnverified(club, v.excluded);
            && (forall i, j :: 0 <= i < j < |all| && all[j].source.Verified? ==> all[i].source.Verified?)
            && (forall t, k :: t in all && t.source.Club? && 0 <= k < |rows| && Synced(rows[k], w, exchange, fetch) ==>
                  ClubName(t.act) != rows[k].name && ClubName(t.act) != ToClubName(rows[k].name))
  {
    var v := CollectVerified(rows, w, exchange, fetch);
    var kept := KeepUnverified(club, v.excluded);
    KeepUnverifiedSound(club, v.excluded);
    CollectVerifiedComplete(rows, w, exchange, fetch);
    var all := v.acts + kept;
    forall i, j | 0 <= i < j < |all| && all[j].source.Verified?
      ensures all[i].source.Verified?
    {
      assert all[i] == v.acts[i];
    }
    forall t | t in all && t.source.Club?
      ensures t in kept
    {
    }
  }
}

=== FILE: ordering.dfy ===
/** Stable descending sort by an integer key.

    Both scripts sort with `Array.prototype.sort` and a comparator
    `(a, b) => key(b) - key(a)`. Since ECMAScript 2019 that sort is stable, so
    its result is the unique permutation that is non-increasing by key and
    keeps elements of equal key in their input order; `SortedUnique` proves
    that the insertion sort below is that permutation. */
module Ordering {

  predicate SortedDesc<T>(s: seq<T>, key: T -> int) {
    forall i, j :: 0 <= i < j < |s| ==> key(s[i]) >= key(s[j])
  }

  /** The elements of `s` whose key is `k`, in their order in `s`. */
  function WithKey<T>(s: seq<T>, key: T -> int, k: int): seq<T> {
    if s == [] then []
    else (if key(s[0]) == k then [s[0]] else []) + WithKey(s[1..], key, k)
  }

  /** Places `x` before the first element whose key is not greater than its own. */
  function Insert<T>(x: T, s: seq<T>, key: T -> int): (r: seq<T>)
    requires SortedDesc(s, key)
    ensures SortedDesc(r, key)
    ensures multiset(r) == multiset(s) + multiset{x}
    ensures |r| == |s| + 1
    ensures r[0] == x || (s != [] && r[0] == s[0])
  {
    if s == [] || key(x) >= key(s[0]) then [x] + s
    else
      var tail := Insert(x, s[1..], key);
      assert s == [s[0]] + s[1..];
      assert key(tail[0]) <= key(s[0]);
      [s[0]] + tail
  }

  /** The result is non-increasing by key and is a permutation of the input. */
  function SortDesc<T>(s: seq<T>, key: T -> int): (r: seq<T>)
    ensures SortedDesc(r, key)
    ensures multiset(r) == multiset(s)
    ensures |r| == |s|
  {
    if s == [] then []
    else
      assert s == [s[0]] + s[1..];
      Insert(s[0], SortDesc(s[1..], key), key)
  }

  lemma {:induction false} WithKeyAppend<T>(a: seq<T>, b: seq<T>, key: T -> int, k: int)
    ensures WithKey(a + b, key, k) == WithKey(a, key, k) + WithKey(b, key, k)
    decreases |a|
  {
    if a == [] {
      assert a + b == b;
    } else {
      var h := if key(a[0]) == k then [a[0]] else [];
      assert a + b == [a[0]] + (a[1..] + b);
      WithKeyAppend(a[1..], b, key, k);
      calc {
        WithKey(a + b, key, k);
        h + WithKey(a[1..] + b, key, k);
        h + (WithKey(a[1..], key, k) + WithKey(b, key, k));
        (h + WithKey(a[1..], key, k)) + WithKey(b, key, k);
      }
    }
  }

  /** Inserting `x` adds it in front of the equal-key elements already there. */
  lemma {:induction false} InsertStable<T>(x: T, s: seq<T>, key: T -> int, k: int)
    requires SortedDesc(s, key)
    ensures WithKey(Insert(x, s, key), key, k) == WithKey([x], key, k) + WithKey(s, key, k)
    decreases |s|
  {
    if s == [] || key(x) >= key(s[0]) {
      WithKeyAppend([x], s, key, k);
    } else {
      InsertStable(x, s[1..], key, k);
      var r := Insert(x, s, key);
      assert r[1..] == Insert(x, s[1..], key);
      assert WithKey(s, key, k) == WithKey([s[0]], key, k) + WithKey(s[1..], key, k) by {
        WithKeyAppend([s[0]], s[1..], key, k);
        assert [s[0]] + s[1..] == s;
      }
    }
  }

  /** Stability: for every key value, the elements with that key appear in the
      output in the same order as in the input. */
  lemma {:induction false} SortStable<T>(s: seq<T>, key: T -> int, k: int)
    ensures WithKey(SortDesc(s, key), key, k) == WithKey(s, key, k)
    decreases |s|
  {
    if s != [] {
      SortStable(s[1..], key, k);
      InsertStable(s[0], SortDesc(s[1..], key), key, k);
      WithKeyAppend([s[0]], s[1..], key, k);
      assert [s[0]] + s[1..] == s;
    }
  }

  lemma WithKeyHead<T>(s: seq<T>, key: T -> int)
    ensures s != [] ==> WithKey(s, key, key(s[0])) != []
    ensures s != [] ==> WithKey(s, key, key(s[0]))[0] == s[0]
  {
  }

  /** Every element of `WithKey(s, key, k)` has key `k` and comes from `s`. */
  lemma {:induction false} WithKeyMembers<T>(s: seq<T>, key: T -> int, k: int)
    ensures forall e :: e in WithKey(s, key, k) ==> e in s && key(e) == k
    decreases |s|
  {
    if s != [] {
      WithKeyMembers(s[1..], key, k);
    }
  }

  /** In a sequence sorted by key, dropping the head only removes it from the
      group of its own key. */
  lemma WithKeyTail<T>(s: seq<T>, key: T -> int, k: int)
    requires s != []
    ensures key(s[0]) != k ==> WithKey(s[1..], key, k) == WithKey(s, key, k)
    ensures key(s[0]) == k ==> WithKey(s[1..], key, k) == WithKey(s, key, k)[1..]
  {
  }

  /** Two sequences sorted by key that agree on every key group are equal:
      a stable sort has exactly one possible result. */
  lemma {:induction false} SortedUnique<T>(a: seq<T>, b: seq<T>, key: T -> int)
    requires SortedDesc(a, key) && SortedDesc(b, key)
    requires forall k :: WithKey(a, key, k) == WithKey(b, key, k)
    ensures a == b
    decreases |a|
  {
    if a == [] || b == [] {
      WithKeyHead(a, key);
      WithKeyHead(b, key);
    } else {
      WithKeyHead(a, key);
      WithKeyHead(b, key);
      HeadKeyIsMax(a, key, key(b[0]));
      HeadKeyIsMax(b, key, key(a[0]));
      assert a[0] == b[0];
      forall k
        ensures WithKey(a[1..], key, k) == WithKey(b[1..], key, k)
      {
        WithKeyTail(a, key, k);
        WithKeyTail(b, key, k);
      }
      SortedUnique(a[1..], b[1..], key);
      assert a == [a[0]] + a[1..];
      assert b == [b[0]] + b[1..];
    }
  }

  /** In a sequence sorted by key, no key group holds a key above the head's. */
  lemma HeadKeyIsMax<T>(s: seq<T>, key: T -> int, k: int)
    requires s != [] && SortedDesc(s, key)
    requires WithKey(s, key, k) != []
    ensures key(s[0]) >= k
  {
    WithKeyMembers(s, key, k);
    var e := WithKey(s, key, k)[0];
    assert e in WithKey(s, key, k);
    var j :| 0 <= j < |s| && s[j] == e;
  }

  /** Any stable descending sort of `s` returns `SortDesc(s, key)`. */
  lemma StableSortIsSortDesc<T>(s: seq<T>, r: seq<T>, key: T -> int)
    requires SortedDesc(r, key)
    requires forall k :: WithKey(r, key, k) == WithKey(s, key, k)
    ensures r == SortDesc(s, key)
  {
    forall k
      ensures WithKey(r, key, k) == WithKey(SortDesc(s, key), key, k)
    {
      SortStable(s, key, k);
    }
    SortedUnique(r, SortDesc(s, key), key);
  }
}

=== FILE: registration.dfy ===
/** The registration endpoint: the OAuth redirect from the activity site
    carries a one-time `code`, which is exchanged for the athlete's profile
    and refresh token; the athlete's Athletes row is then updated, or a new
    row appended, and the browser is redirected to the leaderboard. */
module Registration {
  import opened Wrappers
  import opened Strava
  import opened Sheets
  import opened Text
  import opened Tables
  import opened ClubNames

  /** The HTTP answer of the endpoint. */
  datatype Response = BadRequest(body: string) | ServerError(body: string) | Redirect(url: string)

  /** The answer and the Athletes tab afterwards (`None`: there is no such tab). */
  datatype Registered = Registered(response: Response, athletes: Option<seq<AthleteRow>>)

  const NoCodeMessage: string := "No code provided by Strava."
  const FailurePrefix: string := "Authentication failed: "
  const MissingTabMessage: string := "Tab named \"Athletes\" not found in Google Sheet. Check your tab names!"
  const SuccessUrl: string := "https://uraymeiviar.github.io/strava-bot/?status=success"

  function AthleteId(row: AthleteRow): string {
    row.athleteId
  }

  /** The row written for an athlete seen for the first time. */
  function NewRow(grant: CodeGrant, registeredAt: string): (row: AthleteRow)
    ensures (forall i :: 0 <= i < |row.athleteId| ==> IsDigit(row.athleteId[i]))
            && DecimalValue(row.athleteId) == grant.athlete.id
    ensures row.refreshToken == grant.refreshToken
  {
    DecimalRoundTrip(grant.athlete.id);
    AthleteRow(NatToDecimal(grant.athlete.id),
               DisplayName(grant.athlete.firstname, grant.athlete.lastname),
               grant.refreshToken, registeredAt)
  }

  /** Find-or-append of the athlete's row by `athlete_id`, the profile id in
      decimal. An existing row gets the new token and the `en-GB` clock
      reading; a new row gets the `en-US` one. */
  function SaveAthlete(rows: seq<AthleteRow>, grant: CodeGrant, clockGB: string, clockUS: string): (r: seq<AthleteRow>)
    ensures (forall j :: 0 <= j < |rows| ==> rows[j].athleteId != NatToDecimal(grant.athlete.id)) ==>
      && r == rows + [NewRow(grant, clockUS)]
      && r[|rows|].name == grant.athlete.firstname + " " + grant.athlete.lastname
    ensures forall k: nat :: FirstWith(rows, AthleteId, NatToDecimal(grant.athlete.id), k) ==>
      && |r| == |rows|
      && r[k] == rows[k].(refreshToken := grant.refreshToken, lastRegistered := clockGB)
      && forall j :: 0 <= j < |rows| && j != k ==> r[j] == rows[j]
  {
    Upsert(rows, AthleteId, NatToDecimal(grant.athlete.id),
           (row: AthleteRow) => row.(refreshToken := grant.refreshToken, lastRegistered := clockGB),
           NewRow(grant, clockUS))
  }

  /** A registration never puts an id on more rows than before, except that
      the athlete's own id is on exactly one row when it was on none; other
      ids' counts are unchanged. */
  lemma SaveAthleteCounts(rows: seq<AthleteRow>, grant: CodeGrant, clockGB: string, clockUS: string, id: string)
    ensures var r := SaveAthlete(rows, grant, clockGB, clockUS);
            && (id != NatToDecimal(grant.athlete.id) ==> CountKey(r, AthleteId, id) == CountKey(rows, AthleteId, id))
            && (id == NatToDecimal(grant.athlete.id) ==>
                  CountKey(r, AthleteId, id) == if CountKey(rows, AthleteId, id) == 0 then 1 else CountKey(rows, AthleteId, id))
  {
    var update := (row: AthleteRow) => row.(refreshToken := grant.refreshToken, lastRegistered := clockGB);
    UpsertCounts(rows, AthleteId, NatToDecimal(grant.athlete.id), update, NewRow(grant, clockUS), id);
  }

  /** The endpoint. `code` is the query parameter (`""` when absent); the clock
      readings are the two locale renderings of the time of the request. */
  function Register(code: string, exchange: string -> Result<CodeGrant>,
                    athletes: Option<seq<AthleteRow>>, clockGB: string, clockUS: string): (r: Registered)
    ensures code == "" ==> r == Registered(BadRequest(NoCodeMessage), athletes)
    ensures code != "" && exchange(code).Err? ==>
      r == Registered(ServerError(FailurePrefix + exchange(code).message), athletes)
    ensures code != "" && exchange(code).Ok? && athletes.None? ==>
      r == Registered(ServerError(FailurePrefix + MissingTabMessage), None)
    ensures r.response.Redirect? <==> code != "" && exchange(code).Ok? && athletes.Some?
    ensures r.response.Redirect? ==>
      && r.response.url == SuccessUrl
      && r.athletes == Some(SaveAthlete(athletes.value, exchange(code).value, clockGB, clockUS))
  {
    if code == "" then Registered(BadRequest(NoCodeMessage), athletes)
    else match exchange(code)
      case Err(message) => Registered(ServerError(FailurePrefix + message), athletes)
      case Ok(grant) =>
        match athletes
        case None => Registered(ServerError(FailurePrefix + MissingTabMessage), None)
        case Some(rows) => Registered(Redirect(SuccessUrl), Some(SaveAthlete(rows, grant, clockGB, clockUS)))
  }

  /** Without a code the token endpoint is never asked: the answer is the same
      whatever it would have said. */
  lemma NoCodeNoExchange(exchange1: string -> Result<CodeGrant>, exchange2: string -> Result<CodeGrant>,
                         athletes: Option<seq<AthleteRow>>, clockGB: string, clockUS: string)
    ensures Register("", exchange1, athletes, clockGB, clockUS) == Register("", exchange2, athletes, clockGB, clockUS)
    ensures Register("", exchange1, athletes, clockGB, clockUS).response.BadRequest?
  {
  }

  /** Registering the same athlete twice leaves one row for them, holding the
      token of the second registration. */
  lemma {:induction false} ReRegistration(rows: seq<AthleteRow>, first: CodeGrant, second: CodeGrant,
                                          clockGB: string, clockUS: string)
    requires first.athlete.id == second.athlete.id
    requires UniqueKeys(rows, AthleteId)
    ensures var twice := SaveAthlete(SaveAthlete(rows, first, clockGB, clockUS), second, clockGB, clockUS);
            && CountKey(twice, AthleteId, NatToDecimal(first.athlete.id)) == 1
            && exists k :: 0 <= k < |twice| && twice[k].athleteId == NatToDecimal(first.athlete.id)
                           && twice[k].refreshToken == second.refreshToken
  {
    var id := NatToDecimal(first.athlete.id);
    var once := SaveAthlete(rows, first, clockGB, clockUS);
    var twice := SaveAthlete(once, second, clockGB, clockUS);
    assert CountKey(twice, AthleteId, id) == 1 by {
      UniqueKeysCount(rows, AthleteId, id);
      SaveAthleteCounts(rows, first, clockGB, clockUS, id);
      SaveAthleteCounts(once, second, clockGB, clockUS, id);
    }
    match FindFirst(once, AthleteId, id)
    case Some(k) =>
      assert FirstWith(once, AthleteId, id, k);
      assert twice[k].athleteId == id && twice[k].refreshToken == second.refreshToken;
    case None =>
      assert twice[|once|].athleteId == id && twice[|once|].refreshToken == second.refreshToken;
  }
}

=== FILE: scoring.dfy ===
/** The per-athlete score: only runs count, at ten points per kilometre, and
    the total is floored once, after every run has been added. */
module Scoring {
  import opened Strava

  const RunKind: string := "Run"

  /** The metres of the activities whose type is exactly `Run`. */
  function RunMetres(acts: seq<Activity>): (m: nat)
    ensures forall i :: 0 <= i < |acts| && acts[i].kind == RunKind ==> acts[i].distance <= m
  {
    if acts == [] then 0
    else (if acts[0].kind == RunKind then acts[0].distance else 0) + RunMetres(acts[1..])
  }

  /** `Math.floor(points)` where `points` adds `distance / 1000 * 10` per run:
      ten points per whole kilometre, one per whole hundred metres of the total. */
  function Points(acts: seq<Activity>): (p: nat)
    ensures p * 100 <= RunMetres(acts) < p * 100 + 100
  {
    RunMetres(acts) / 100
  }

  lemma {:induction false} RunMetresAppend(a: seq<Activity>, b: seq<Activity>)
    ensures RunMetres(a + b) == RunMetres(a) + RunMetres(b)
    decreases |a|
  {
    if a == [] {
      assert a + b == b;
    } else {
      assert (a + b)[0] == a[0];
      assert (a + b)[1..] == a[1..] + b;
      RunMetresAppend(a[1..], b);
    }
  }

  /** A single activity adds exactly its distance when it is a run and nothing
      otherwise; with `RunMetresAppend` this pins the total to the sum of the
      run distances. */
  lemma RunMetresSingle(a: Activity)
    ensures RunMetres([a]) == (if a.kind == RunKind then a.distance else 0)
  {
    assert [a][1..] == [];
  }

  /** Activities of any other type (`Ride`, `Walk`, `run`, ...) change neither
      the distance nor the points. */
  lemma {:induction false} OtherKindsAddNothing(acts: seq<Activity>, others: seq<Activity>)
    requires forall i :: 0 <= i < |others| ==> others[i].kind != RunKind
    ensures RunMetres(acts + others) == RunMetres(acts)
    ensures Points(acts + others) == Points(acts)
  {
    RunMetresAppend(acts, others);
    NoRunsNoMetres(others);
  }

  lemma {:induction false} NoRunsNoMetres(acts: seq<Activity>)
    requires forall i :: 0 <= i < |acts| ==> acts[i].kind != RunKind
    ensures RunMetres(acts) == 0
    decreases |acts|
  {
    if acts != [] {
      NoRunsNoMetres(acts[1..]);
    }
  }

  /** The score a per-activity floor would give, for comparison. */
  function FlooredPerRun(acts: seq<Activity>): nat {
    if acts == [] then 0
    else (if acts[0].kind == RunKind then acts[0].distance / 100 else 0) + FlooredPerRun(acts[1..])
  }

  /** Flooring once after the sum never gives less than flooring each run. */
  lemma {:induction false} FloorAfterSumDominates(acts: seq<Activity>)
    ensures FlooredPerRun(acts) <= Points(acts)
    decreases |acts|
  {
    if acts != [] {
      FloorAfterSumDominates(acts[1..]);
      assert acts == [acts[0]] + acts[1..];
      RunMetresAppend([acts[0]], acts[1..]);
      assert RunMetres([acts[0]]) == (if acts[0].kind == RunKind then acts[0].distance else 0);
    }
  }

  /** Two runs of 95 m earn one point together, though neither earns one alone. */
  lemma TwoShortRuns(run: Activity)
    requires run.kind == RunKind && run.distance == 95
    ensures Points([run, run]) == 1
    ensures FlooredPerRun([run, run]) == 0
  {
    assert [run, run][1..] == [run];
    assert RunMetres([run]) == 95;
    assert FlooredPerRun([run]) == 0;
  }
}

=== FILE: sheets.dfy ===
/** The spreadsheet tabs the scripts read and write, each row a typed record.
    A cell that is empty or absent (`row.get(...)` giving `undefined`) is the
    empty string: both are falsy, and two such cells compare equal, as two
    `undefined` cells do under `===`. */
module Sheets {
  import opened Wrappers
  import opened Strava

  /** A row of the `Athletes` tab. */
  datatype AthleteRow = AthleteRow(
    athleteId: string,
    name: string,
    refreshToken: string,
    lastRegistered: string)

  /** A row of the `Config` tab: the cells under the `Key` and `Value`
      headers and the raw cells of the row in column order. */
  datatype ConfigRow = ConfigRow(keyCell: string, valueCell: string, raw: seq<string>)

  /** The `athlete_id` cell of a club-sync Stats row: the API's numeric id, or
      a slug made from the display name when the club feed has no id. */
  datatype AthleteKey = NumericId(id: nat) | NameSlug(slug: string)

  /** A Stats row as the club sync writes it: one per activity. */
  datatype ActivityRow = ActivityRow(
    athleteId: Option<AthleteKey>,
    name: string,
    kind: string,
    distanceMeters: nat,
    movingTime: nat,
    elevationGain: int,
    date: Option<Timestamp>)

  /** A Stats row as the per-athlete sync writes it: one per athlete.
      `totalDistance` is kept in metres. */
  datatype ScoreRow = ScoreRow(
    athleteId: string,
    name: string,
    totalPoints: nat,
    totalDistance: nat)
}

=== FILE: strava.dfy ===
/** The shapes of the third-party activity API's responses, reduced to the
    fields the sync scripts read. Every HTTP call of the scripts is a
    parameter of the model whose answer is one of these values. */
module Strava {
  import opened Wrappers

  /** Milliseconds since the Unix epoch, as `Date.prototype.getTime` gives. */
  type Timestamp = int

  /** The `athlete` object inside an activity. The club feed leaves `id` out. */
  datatype AthleteRef = AthleteRef(id: Option<nat>, firstname: string, lastname: string)

  /** One activity. `kind` is the API's `type` field; distances are metres,
      times seconds; `startDateLocal` is `None` when the feed omits the date. */
  datatype Activity = Activity(
    athlete: AthleteRef,
    kind: string,
    distance: nat,
    movingTime: nat,
    elevationGain: int,
    startDateLocal: Option<Timestamp>)

  /** Answer of the token endpoint to a `refresh_token` grant. */
  datatype TokenGrant = TokenGrant(accessToken: string, refreshToken: string)

  /** The athlete profile returned with an `authorization_code` grant. */
  datatype Profile = Profile(id: nat, firstname: string, lastname: string)

  /** Answer of the token endpoint to an `authorization_code` grant. */
  datatype CodeGrant = CodeGrant(athlete: Profile, refreshToken: string)

  /** Query string of the per-athlete activities request (`after`/`before` in
      Unix seconds). */
  datatype ActivityQuery = ActivityQuery(after: int, before: int, perPage: nat)

  /** Query string of one club activities page request. */
  datatype ClubQuery = ClubQuery(page: nat, perPage: nat, after: int)

  /** Outcome of one club page request: the request threw, or it answered with
      a list (a `null` body reads as the empty list). */
  datatype PageResult = PageFailed(message: string) | Page(items: seq<Activity>)

  /** `Math.floor(t / 1000)`: a timestamp in Unix seconds. Dafny's `/` by a
      positive divisor already rounds toward negative infinity. */
  function UnixSeconds(t: Timestamp): (secs: int)
    ensures secs * 1000 <= t < secs * 1000 + 1000
  {
    t / 1000
  }
}

=== FILE: tables.dfy ===
/** Keyed lookups over a table held as a sequence of rows, as
    `rows.find(r => r.get('athlete_id') === id)` does. */
module Tables {
  import opened Wrappers

  /** Index of the first row whose key is `id`, or `None` when no row has it. */
  function FindFirst<T>(rows: seq<T>, key: T -> string, id: string): (r: Option<nat>)
    ensures r.Some? ==> r.value < |rows| && key(rows[r.value]) == id
    ensures r.Some? ==> forall j :: 0 <= j < r.value ==> key(rows[j]) != id
    ensures r.None? <==> forall j :: 0 <= j < |rows| ==> key(rows[j]) != id
  {
    if rows == [] then None
    else if key(rows[0]) == id then Some(0)
    else match FindFirst(rows[1..], key, id)
      case None => None
      case Some(k) => Some(k + 1)
  }

  /** Number of rows whose key is `id`. */
  function CountKey<T>(rows: seq<T>, key: T -> string, id: string): nat {
    if rows == [] then 0
    else (if key(rows[0]) == id then 1 else 0) + CountKey(rows[1..], key, id)
  }

  lemma {:induction false} CountKeyAppend<T>(a: seq<T>, b: seq<T>, key: T -> string, id: string)
    ensures CountKey(a + b, key, id) == CountKey(a, key, id) + CountKey(b, key, id)
    decreases |a|
  {
    if a == [] {
      assert a + b == b;
    } else {
      assert (a + b)[0] == a[0];
      assert (a + b)[1..] == a[1..] + b;
      CountKeyAppend(a[1..], b, key, id);
    }
  }

  /** Replacing row `k` by a row with the same key leaves every key's count unchanged. */
  lemma {:induction false} CountKeyUpdate<T>(rows: seq<T>, k: nat, v: T, key: T -> string, id: string)
    requires k < |rows| && key(v) == key(rows[k])
    ensures CountKey(rows[k := v], key, id) == CountKey(rows, key, id)
    decreases |rows|
  {
    if k > 0 {
      assert rows[k := v][1..] == rows[1..][k - 1 := v];
      CountKeyUpdate(rows[1..], k - 1, v, key, id);
    }
  }

  /** No key appears on more than one row. */
  predicate UniqueKeys<T>(rows: seq<T>, key: T -> string) {
    forall i, j :: 0 <= i < j < |rows| ==> key(rows[i]) != key(rows[j])
  }

  /** With unique keys, every key is counted at most once. */
  lemma {:induction false} UniqueKeysCount<T>(rows: seq<T>, key: T -> string, id: string)
    requires UniqueKeys(rows, key)
    ensures CountKey(rows, key, id) <= 1
    decreases |rows|
  {
    if rows != [] {
      UniqueKeysCount(rows[1..], key, id);
      if key(rows[0]) == id {
        CountKeyAbsent(rows[1..], key, id);
      }
    }
  }

  /** A key on no row is counted zero times. */
  lemma {:induction false} CountKeyAbsent<T>(rows: seq<T>, key: T -> string, id: string)
    requires forall j :: 0 <= j < |rows| ==> key(rows[j]) != id
    ensures CountKey(rows, key, id) == 0
    decreases |rows|
  {
    if rows != [] {
      CountKeyAbsent(rows[1..], key, id);
    }
  }

  /** A key found by `FindFirst` is counted at least once. */
  lemma {:induction false} CountKeyPresent<T>(rows: seq<T>, k: nat, key: T -> string)
    requires k < |rows|
    ensures CountKey(rows, key, key(rows[k])) >= 1
    decreases |rows|
  {
    if k > 0 {
      CountKeyPresent(rows[1..], k - 1, key);
    }
  }

  /** Counts bound uniqueness: keys are unique exactly when no key is counted twice. */
  lemma {:induction false} CountsGiveUniqueKeys<T>(rows: seq<T>, key: T -> string)
    requires forall id :: CountKey(rows, key, id) <= 1
    ensures UniqueKeys(rows, key)
    decreases |rows|
  {
    if rows != [] {
      forall id ensures CountKey(rows[1..], key, id) <= 1 {
        assert CountKey(rows, key, id) <= 1;
      }
      CountsGiveUniqueKeys(rows[1..], key);
      forall j | 1 <= j < |rows| ensures key(rows[0]) != key(rows[j]) {
        CountKeyPresent(rows[1..], j - 1, key);
        assert CountKey(rows, key, key(rows[0])) <= 1;
      }
    }
  }

  /** Row `k` is the first row whose key is `id`. */
  predicate FirstWith<T>(rows: seq<T>, key: T -> string, id: string, k: nat) {
    k < |rows| && key(rows[k]) == id && forall j :: 0 <= j < k ==> key(rows[j]) != id
  }

  /** Find-or-append: the first row keyed `id` is replaced by its update (which
      keeps the key); when no row has the key, `added` is appended. */
  function Upsert<T>(rows: seq<T>, key: T -> string, id: string, update: T -> T, added: T): (r: seq<T>)
    requires forall k :: 0 <= k < |rows| ==> key(update(rows[k])) == key(rows[k])
    requires key(added) == id
    ensures (forall j :: 0 <= j < |rows| ==> key(rows[j]) != id) ==> r == rows + [added]
    ensures forall k: nat :: FirstWith(rows, key, id, k) ==> r == rows[k := update(rows[k])]
  {
    match FindFirst(rows, key, id)
    case Some(k) => rows[k := update(rows[k])]
    case None => rows + [added]
  }

  /** After an upsert the key `id` is on a row, counted as often as before
      (at least once), and every other key's count is unchanged. */
  lemma UpsertCounts<T>(rows: seq<T>, key: T -> string, id: string, update: T -> T, added: T, other: string)
    requires forall k :: 0 <= k < |rows| ==> key(update(rows[k])) == key(rows[k])
    requires key(added) == id
    ensures other != id ==> CountKey(Upsert(rows, key, id, update, added), key, other) == CountKey(rows, key, other)
    ensures CountKey(Upsert(rows, key, id, update, added), key, id)
            == if CountKey(rows, key, id) == 0 then 1 else CountKey(rows, key, id)
  {
    match FindFirst(rows, key, id)
    case Some(k) =>
      CountKeyUpdate(rows, k, update(rows[k]), key, other);
      CountKeyUpdate(rows, k, update(rows[k]), key, id);
      CountKeyPresent(rows, k, key);
    case None =>
      CountKeyAppend(rows, [added], key, other);
      CountKeyAppend(rows, [added], key, id);
      CountKeyAbsent(rows, key, id);
  }

  /** An upsert never makes a key appear twice. */
  lemma UpsertKeepsUnique<T>(rows: seq<T>, key: T -> string, id: string, update: T -> T, added: T)
    requires forall k :: 0 <= k < |rows| ==> key(update(rows[k])) == key(rows[k])
    requires key(added) == id
    requires UniqueKeys(rows, key)
    ensures UniqueKeys(Upsert(rows, key, id, update, added), key)
  {
    forall x ensures CountKey(Upsert(rows, key, id, update, added), key, x) <= 1 {
      UpsertCounts(rows, key, id, update, added, x);
      UniqueKeysCount(rows, key, x);
    }
    CountsGiveUniqueKeys(Upsert(rows, key, id, update, added), key);
  }
}

=== FILE: text.dfy ===
/** The string primitives the sync scripts use: `trim`, `split(' ')`,
    `replace(/\s+/g, '_')`, `toLowerCase` and `Number.prototype.toString`.
    Strings are sequences of Unicode scalar values. */
module Text {

  /** The code points JavaScript's `trim` strips and its `\s` class matches
      (WhiteSpace and LineTerminator of the ECMAScript grammar). */
  predicate IsSpace(c: char) {
    || c == ' ' || c == '\t' || c == '\n' || c == '\r'
    || c == '\U{000B}' || c == '\U{000C}' || c == '\U{00A0}' || c == '\U{1680}'
    || ('\U{2000}' <= c <= '\U{200A}')
    || c == '\U{2028}' || c == '\U{2029}' || c == '\U{202F}' || c == '\U{205F}'
    || c == '\U{3000}' || c == '\U{FEFF}'
  }

  predicate NoSpace(s: string) {
    forall i :: 0 <= i < |s| ==> !IsSpace(s[i])
  }

  predicate AllSpace(s: string) {
    forall i :: 0 <= i < |s| ==> IsSpace(s[i])
  }

  /** Number of whitespace characters at the start of `s`. */
  function LeadingSpaces(s: string): (n: nat)
    ensures n <= |s|
    ensures forall i :: 0 <= i < n ==> IsSpace(s[i])
    ensures n == |s| || !IsSpace(s[n])
  {
    if |s| > 0 && IsSpace(s[0]) then 1 + LeadingSpaces(s[1..]) else 0
  }

  /** Number of whitespace characters at the end of `s`. */
  function TrailingSpaces(s: string): (n: nat)
    ensures n <= |s|
    ensures forall i :: |s| - n <= i < |s| ==> IsSpace(s[i])
    ensures n == |s| || !IsSpace(s[|s| - n - 1])
  {
    if |s| > 0 && IsSpace(s[|s| - 1]) then 1 + TrailingSpaces(s[..|s| - 1]) else 0
  }

  /** `String.prototype.trim`: the infix of `s` left after removing leading and
      trailing whitespace; it neither starts nor ends with whitespace. */
  function Trim(s: string): (r: string)
    ensures LeadingSpaces(s) + |r| <= |s|
    ensures r == s[LeadingSpaces(s)..LeadingSpaces(s) + |r|]
    ensures forall i :: 0 <= i < LeadingSpaces(s) ==> IsSpace(s[i])
    ensures forall i :: LeadingSpaces(s) + |r| <= i < |s| ==> IsSpace(s[i])
    ensures r == [] || (!IsSpace(r[0]) && !IsSpace(r[|r| - 1]))
  {
    var lo := LeadingSpaces(s);
    var t := s[lo..];
    t[..|t| - TrailingSpaces(t)]
  }

  /** A string that neither starts nor ends with whitespace is its own trim. */
  lemma TrimUntouched(s: string)
    requires s == [] || (!IsSpace(s[0]) && !IsSpace(s[|s| - 1]))
    ensures Trim(s) == s
  {
    assert LeadingSpaces(s) == 0;
    assert TrailingSpaces(s) == 0;
    assert s[0..][..|s|] == s;
  }

  /** Index of the first `c` at or after position `k`, or `|s|` when there is none. */
  function FindFrom(s: string, c: char, k: nat): (i: nat)
    requires k <= |s|
    ensures k <= i <= |s|
    ensures i < |s| ==> s[i] == c
    ensures forall m :: k <= m < i ==> s[m] != c
    decreases |s| - k
  {
    if k == |s| then |s|
    else if s[k] == c then k
    else FindFrom(s, c, k + 1)
  }

  /** Index of the first `c` in `s`, or `|s|` when `s` has none. */
  function IndexOf(s: string, c: char): (i: nat)
    ensures i <= |s|
    ensures i < |s| ==> s[i] == c
    ensures forall m :: 0 <= m < i ==> s[m] != c
  {
    FindFrom(s, c, 0)
  }

  /** Index of the last `c` before position `k`, or -1 when there is none. */
  function FindBefore(s: string, c: char, k: nat): (i: int)
    requires k <= |s|
    ensures -1 <= i < k
    ensures i >= 0 ==> s[i] == c
    ensures forall m :: i < m < k ==> s[m] != c
    decreases k
  {
    if k == 0 then -1
    else if s[k - 1] == c then k - 1
    else FindBefore(s, c, k - 1)
  }

  /** `s.lastIndexOf(c)`: index of the last `c` in `s`, or -1 when `s` has none. */
  function LastIndexOf(s: string, c: char): (i: int)
    ensures -1 <= i < |s|
    ensures i >= 0 ==> s[i] == c
    ensures forall m :: i < m < |s| ==> s[m] != c
  {
    FindBefore(s, c, |s|)
  }

  /** `parts.join(sep)`. */
  function Join(parts: seq<string>, sep: char): string {
    if |parts| == 0 then ""
    else if |parts| == 1 then parts[0]
    else parts[0] + [sep] + Join(parts[1..], sep)
  }

  /** The pieces of `s[start..]` split at every `sep`. */
  function SplitFrom(s: string, sep: char, start: nat): (parts: seq<string>)
    requires start <= |s|
    ensures |parts| >= 1
    decreases |s| - start
  {
    var i := FindFrom(s, sep, start);
    if i == |s| then [s[start..]]
    else [s[start..i]] + SplitFrom(s, sep, i + 1)
  }

  /** `s.split(sep)` for a one-character separator. */
  function Split(s: string, sep: char): (parts: seq<string>)
    ensures |parts| >= 1
  {
    SplitFrom(s, sep, 0)
  }

  function Last(parts: seq<string>): string
    requires |parts| >= 1
  {
    parts[|parts| - 1]
  }

  lemma {:induction false} SplitFromPieces(s: string, sep: char, start: nat)
    requires start <= |s|
    ensures |SplitFrom(s, sep, start)| == 1 <==> FindFrom(s, sep, start) == |s|
    ensures forall k :: 0 <= k < |SplitFrom(s, sep, start)| ==> sep !in SplitFrom(s, sep, start)[k]
    decreases |s| - start
  {
    var i := FindFrom(s, sep, start);
    var parts := SplitFrom(s, sep, start);
    if i < |s| {
      SplitFromPieces(s, sep, i + 1);
      var rest := SplitFrom(s, sep, i + 1);
      assert sep !in s[start..i];
      forall k | 1 <= k < |parts| ensures sep !in parts[k] {
        assert parts[k] == rest[k - 1];
      }
    } else {
      assert sep !in s[start..];
    }
  }

  /** A split gives more than one piece exactly when the separator occurs, and
      no piece contains the separator. */
  lemma SplitPieces(s: string, sep: char)
    ensures |Split(s, sep)| == 1 <==> sep !in s
    ensures forall k :: 0 <= k < |Split(s, sep)| ==> sep !in Split(s, sep)[k]
  {
    SplitFromPieces(s, sep, 0);
    assert s[0..] == s;
  }

  lemma {:induction false} JoinSplitFrom(s: string, sep: char, start: nat)
    requires start <= |s|
    ensures Join(SplitFrom(s, sep, start), sep) == s[start..]
    decreases |s| - start
  {
    var i := FindFrom(s, sep, start);
    if i < |s| {
      var rest := SplitFrom(s, sep, i + 1);
      assert SplitFrom(s, sep, start) == [s[start..i]] + rest;
      assert Join(SplitFrom(s, sep, start), sep) == s[start..i] + [sep] + s[i + 1..] by {
        JoinSplitFrom(s, sep, i + 1);
        JoinCons(s[start..i], rest, sep);
      }
      assert s[start..i] + [sep] + s[i + 1..] == s[start..];
    } else {
      assert SplitFrom(s, sep, start) == [s[start..]];
    }
  }

  lemma JoinCons(first: string, rest: seq<string>, sep: char)
    requires |rest| >= 1
    ensures Join([first] + rest, sep) == first + [sep] + Join(rest, sep)
  {
    assert ([first] + rest)[1..] == rest;
  }

  /** Joining the pieces of a split with the separator gives the string back. */
  lemma JoinSplit(s: string, sep: char)
    ensures Join(Split(s, sep), sep) == s
  {
    JoinSplitFrom(s, sep, 0);
    assert s[0..] == s;
  }

  /** The first piece of a split is the text before the first separator. */
  lemma SplitFirst(s: string, sep: char)
    ensures Split(s, sep)[0] == s[..IndexOf(s, sep)]
  {
  }

  lemma {:induction false} SplitFromLast(s: string, sep: char, start: nat)
    requires start <= |s|
    ensures LastIndexOf(s, sep) + 1 <= start ==> Last(SplitFrom(s, sep, start)) == s[start..]
    ensures LastIndexOf(s, sep) + 1 > start ==> Last(SplitFrom(s, sep, start)) == s[LastIndexOf(s, sep) + 1..]
    decreases |s| - start
  {
    var i := FindFrom(s, sep, start);
    var last := LastIndexOf(s, sep);
    if i < |s| {
      SplitFromLast(s, sep, i + 1);
      assert last >= i;
    } else {
      assert last < start;
    }
  }

  /** The last piece of a split is the text after the last separator. */
  lemma SplitLast(s: string, sep: char)
    ensures Last(Split(s, sep)) == s[LastIndexOf(s, sep) + 1..]
  {
    SplitFromLast(s, sep, 0);
    assert s[0..] == s;
  }

  /** `s.replace(/\s+/g, '_')`: every maximal run of whitespace becomes one `_`. */
  function CollapseSpaces(s: string): (r: string)
    ensures |r| <= |s|
    ensures NoSpace(r)
    ensures NoSpace(s) ==> r == s
    decreases |s|
  {
    if s == [] then []
    else if IsSpace(s[0]) then
      var n := LeadingSpaces(s);
      "_" + CollapseSpaces(s[n..])
    else
      [s[0]] + CollapseSpaces(s[1..])
  }

  /** A whitespace gap in front of a non-space becomes one `_`. */
  lemma CollapseGap(gap: string, rest: string)
    requires gap != [] && AllSpace(gap)
    requires rest == [] || !IsSpace(rest[0])
    ensures CollapseSpaces(gap + rest) == "_" + CollapseSpaces(rest)
  {
    var s := gap + rest;
    assert forall i :: 0 <= i < |gap| ==> IsSpace(s[i]);
    assert |gap| == |s| || !IsSpace(s[|gap|]);
    assert LeadingSpaces(s) == |gap|;
    assert s[|gap|..] == rest;
  }

  lemma AppendAssoc<T>(a: seq<T>, b: seq<T>, c: seq<T>)
    ensures (a + b) + c == a + (b + c)
  {
  }

  /** A word passes through unchanged and the gap after it becomes one `_`. */
  lemma {:induction false} CollapseWordThenGap(word: string, gap: string, rest: string)
    requires NoSpace(word) && gap != [] && AllSpace(gap)
    requires rest == [] || !IsSpace(rest[0])
    ensures CollapseSpaces(word + gap + rest) == word + "_" + CollapseSpaces(rest)
    decreases |word|
  {
    var s := word + gap + rest;
    if word == [] {
      assert s == gap + rest;
      CollapseGap(gap, rest);
    } else {
      var tail := word[1..] + "_" + CollapseSpaces(rest);
      assert s[0] == word[0] && !IsSpace(s[0]);
      assert s[1..] == word[1..] + gap + rest;
      assert CollapseSpaces(s) == [word[0]] + tail by {
        CollapseWordThenGap(word[1..], gap, rest);
      }
      assert [word[0]] + tail == word + "_" + CollapseSpaces(rest) by {
        AppendAssoc([word[0]], word[1..], "_");
        AppendAssoc([word[0]], word[1..] + "_", CollapseSpaces(rest));
        assert [word[0]] + word[1..] == word;
      }
    }
  }

  predicate IsUpperAscii(c: char) {
    'A' <= c <= 'Z'
  }

  /** `toLowerCase` on one character, for the ASCII letters. */
  function LowerAscii(c: char): (d: char)
    ensures !IsUpperAscii(d)
    ensures IsSpace(d) <==> IsSpace(c)
    ensures !IsUpperAscii(c) ==> d == c
  {
    if IsUpperAscii(c) then (c as int + 32) as char else c
  }

  /** `String.prototype.toLowerCase`, restricted to ASCII letters. */
  function ToLowerAscii(s: string): (r: string)
    ensures |r| == |s|
    ensures forall i :: 0 <= i < |s| ==> r[i] == LowerAscii(s[i])
  {
    seq(|s|, i requires 0 <= i < |s| => LowerAscii(s[i]))
  }

  predicate IsDigit(c: char) {
    '0' <= c <= '9'
  }

  /** `Number.prototype.toString()` of a non-negative integer: canonical decimal. */
  function NatToDecimal(n: nat): (r: string)
    ensures r != []
    ensures forall i :: 0 <= i < |r| ==> IsDigit(r[i])
    ensures |r| == 1 || r[0] != '0'
    ensures n < 10 <==> |r| == 1
  {
    if n < 10 then [('0' as int + n) as char]
    else
      var r := NatToDecimal(n / 10) + [('0' as int + n % 10) as char];
      assert r[0] == NatToDecimal(n / 10)[0];
      r
  }

  /** Reads a string of decimal digits back as a number. */
  function DecimalValue(s: string): nat
    requires forall i :: 0 <= i < |s| ==> IsDigit(s[i])
  {
    if s == [] then 0
    else
      assert IsDigit(s[|s| - 1]);
      10 * DecimalValue(s[..|s| - 1]) + (s[|s| - 1] as int - '0' as int)
  }

  /** Printing then reading a number gives it back. */
  lemma {:induction false} DecimalRoundTrip(n: nat)
    ensures DecimalValue(NatToDecimal(n)) == n
  {
    if n >= 10 {
      var r := NatToDecimal(n);
      assert r[..|r| - 1] == NatToDecimal(n / 10);
      DecimalRoundTrip(n / 10);
    }
  }

  /** Distinct numbers print to distinct strings, so a printed id is a faithful key. */
  lemma DecimalInjective(a: nat, b: nat)
    requires NatToDecimal(a) == NatToDecimal(b)
    ensures a == b
  {
    DecimalRoundTrip(a);
    DecimalRoundTrip(b);
  }
}

=== FILE: wrappers.dfy ===
/** Failure-carrying values shared by every module of the model.

    `Option` stands for a JavaScript value that may be `undefined`;
    `Result` stands for an awaited call that either resolves with a value
    or throws an `Error` whose `message` is kept. */
module Wrappers {

  datatype Option<+T> = None | Some(value: T) {

    /** The value, or `default` when there is none (JavaScript's `v || default`). */
    function GetOr(default: T): T {
      match this
      case Some(v) => v
      case None => default
    }
  }

  datatype Result<+T> = Ok(value: T) | Err(message: string)
}
